=== FILE: README.md ===
# 8-puzzle A* search, modelled in Dafny

This project models the search core of an 8-puzzle solver:
- the 3×3 board of the tiles `1`..`8` and the blank `-`;
- the four blank moves and the parity solvability test;
- loop-free paths of boards;
- the heuristics;
- the A* frontier loop: take the head path, extend it by every neighbour not already on it, keep one cheapest path per terminal state, then sort by estimate.

Two single-file copies of the program (`hw03_smalbadger_sfarris.java`, `hw03_smalbadger.java`) repeat the same board, path and A* code. They share one model here. Their heuristics that differ are separate functions:
- the mean composite;
- the misplaced-tiles and Manhattan versions that count the blank.

Files, one module each (`board.dfy` also holds the small `Wrappers` module):

| file | module | models |
|---|---|---|
| `board.dfy` | `Wrappers`, `Board` | `Option` (Java `null`); the board as a row-major `seq<char>` of length 9; `getAt`, `getLocation`, `equals`, `hashCode`, `replaceWithWildCards` |
| `moves.dfy` | `Moves` | `getOperators`, `transform`, `getOperator`, `getNeighbors` with the registry of discovered states passed and returned explicitly |
| `parity.dfy` | `Parity` | `getInvCount` and `canReach`, the same as `Solvability` in the sfarris copy; a move preserves inversion parity |
| `heuristics.dfy` | `Heuristics` | misplaced tiles, Manhattan distance, the max and mean composites, the zero heuristic, the blank-counting variants; admissibility |
| `path.dfy` | `Paths` | `Path` as an immutable sequence of boards: constructors, `add`, `contains`, `getStateAt`, `copy`, `getOperators`, `length`, `estimate`, `compareTo` (exact and truncating) |
| `search.dfy` | `Search` | A* `exec`/`aStar`: extension (2a/2b), pruning (2c), sorting (2d), the loop and its invariants |

Modelling choices:
- **Estimates.** `eval` and `estimate` return `float` in Java. Every value is a small integer, or a half for the mean composite, so the model uses `real`, which is exact for these values.
- **Operator order.** The Java iterates a `HashSet<Operator>`, so its order is unspecified. The model fixes it to Up, Down, Left, Right. On a valid board at most one move produces a given result (`Moves.TransformInjective`), so `getOperator` does not depend on this order.
- **Bounded loop.** The A* loop takes a `fuel` bound. `OutOfFuel` reports that the bound, not the loop condition, stopped it.
- **Static registry.** `State.database` is a parameter that `getNeighbors` returns enlarged.

## Model

| member | source | states |
|---|---|---|
| Board.GetAt | src/database/State.java:147-156 | the symbol at 0-based (row, col) is on the board, first found at that cell or earlier, and exactly there on a board without repeats, so `getAt` and `getLocation` agree |
| Board.IndexOf | src/database/State.java:124-145 | the first index holding the symbol, or none exactly when the symbol is absent |
| Board.Location | src/database/State.java:124-145 | `getLocation`: 1-based row and column of the first occurrence, null exactly when the symbol is absent |
| Board.DistinctIndexOf | src/database/State.java:135-143 | on a board without repeats, searching for a cell's symbol finds that very cell |
| Board.ValidBoardHasEverySymbol | src/database/State.java:12 | a board of nine distinct symbols from `1`..`8`,`-` holds every symbol, the blank included |
| Board.Equals | src/database/State.java:158-182 | the cell-by-cell loop answers true exactly when the two boards are equal |
| Board.Hash | src/database/State.java:184-201 | the board read as a nine-digit decimal with the blank as 0 is below 10^9, so it fits in a Java `int` |
| Board.HashInjective | src/database/State.java:184-201 | two boards hash equally if and only if they are equal |
| Board.DecimalValueInjective | src/database/State.java:193-200 | two equally long digit strings with the same decimal value are equal |
| Board.ReplaceWithWildCards | src/database/State.java:300-317 | every listed symbol becomes `*`, every other cell is kept |
| Board.WildCardsCompose | src/database/State.java:300-317 | replacing one list and then another equals replacing their union once |
| Moves.Operators | src/database/State.java:84-106 | Up iff the blank is below row 1, Down iff above row 3, Left iff right of column 1, Right iff left of column 3 |
| Moves.OperatorCount | src/database/State.java:90-105 | two moves at a corner, three on an edge, four at the centre |
| Moves.Transform | src/database/State.java:257-298 | null exactly for an operator outside `getOperators`; otherwise the blank and the adjacent cell in that direction are exchanged and all other cells are kept |
| Moves.TransformKeepsSymbols | src/database/State.java:293-294 | a move keeps the board a permutation of the same symbols with a blank, and a valid board valid |
| Moves.TransformBlankIndex | src/database/State.java:293-294 | after a move the blank sits on the target cell |
| Moves.UndoMove | src/hw03_smalbadger.java:485-507 | the opposite operator is legal after a move and undoes it |
| Moves.TransformInjective | src/database/State.java:266-297 | on a valid board two moves giving the same board are the same move |
| Moves.TransformChangesBoard | src/database/State.java:293-294 | a move never leaves a valid board unchanged |
| Moves.FirstProducing | src/database/State.java:116-121 | the loop returns an operator whose move gives the result, or null exactly when none in the list does |
| Moves.GetOperator | src/database/State.java:108-122 | the returned operator's move gives the result; null exactly when no move does |
| Moves.GetOperatorRecoversMove | src/database/State.java:108-122 | on a valid board `getOperator` recovers the move that produced a neighbour |
| Moves.Neighbors | src/database/State.java:203-218 | one neighbour per legal operator |
| Moves.NeighborsAreMoveResults | src/database/State.java:209-215 | every neighbour is the result of a legal move, and every legal move's result is a neighbour |
| Moves.NeighborsOfValid | src/database/State.java:209-215 | the neighbours of a valid board are valid and differ from it |
| Moves.GetNeighbors | src/database/State.java:203-218 | a board is returned exactly when some legal move produces it, one per legal move; the neighbours of a valid board are valid and differ from it; the registry grows by exactly the legal moves' results |
| Moves.Successors | src/database/State.java:209-215 | the set of boards `getNeighbors` records is the set of results of the legal moves |
| Moves.Replay | src/database/State.java:257-298 | a sequence of moves that succeeds keeps the blank and the symbols, and keeps a valid board valid |
| Parity.GetInvCount | src/database/State.java:24-52 | the nested loop counts the pairs of non-blank cells that are out of order, row-major; at most 28 on a valid board |
| Parity.InversionsBound | src/database/State.java:42-49 | inversions are at most n(n-1)/2 for n non-blank cells |
| Parity.CanReach | src/database/State.java:54-63 | true exactly when the two inversion counts have equal parity |
| Parity.CanReachIsEquivalence | src/hw03_smalbadger_sfarris.java:967-973 | the parity test is reflexive, symmetric and transitive |
| Parity.SwapParity | src/database/State.java:26-28 | exchanging the blank with a horizontal or vertical neighbour keeps the inversion parity |
| Parity.MovePreservesParity | src/database/State.java:26-28 | every legal move leads to a board `canReach` accepts |
| Parity.ReplayPreservesParity | src/database/State.java:26-28 | any successful sequence of moves leads to a board `canReach` accepts, so an answer with the other parity is unreachable |
| Heuristics.Misplaced | src/heuristics/MisplacedTiles.java:17-32 | the misplaced-tile count lies in 0..9 |
| Heuristics.MisplacedCounts | src/heuristics/MisplacedTiles.java:21-31 | it equals the number of non-blank cells that differ from the goal, is at most 8 with a blank, and is 0 at the goal |
| Heuristics.MisplacedIgnoresBlankCell | src/heuristics/MisplacedTiles.java:25 | whatever the goal holds at the cell of the board's blank, the count is the same |
| Heuristics.Manhattan | src/heuristics/ManhattanDistance.java:17-39 | the Manhattan sum lies in 0..36 |
| Heuristics.ManhattanTermIsDistance | src/heuristics/ManhattanDistance.java:31-34 | a tile's term is its grid distance to its 0-based goal cell |
| Heuristics.ManhattanBounds | src/heuristics/ManhattanDistance.java:24-34 | with a blank on the board the sum is at most 32 |
| Heuristics.ManhattanAtGoal | src/heuristics/ManhattanDistance.java:24-38 | the distance of the goal to itself is 0 |
| Heuristics.ValidTilesLocatable | src/heuristics/ManhattanDistance.java:31-32 | for valid boards every tile is found in the goal, so `getLocation` never returns null |
| Heuristics.Composite | src/heuristics/CompositeHeuristic.java:20-27 | the composite is at least each component and equal to one of them |
| Heuristics.CompositeBounds | src/heuristics/CompositeHeuristic.java:24-26 | it lies in 0..32 with a blank and is 0 at the goal |
| Heuristics.Mean | src/hw03_smalbadger_sfarris.java:922-929 | twice the mean is the sum of the two components; it is at most the composite and at least the smaller component |
| Heuristics.MeanBounds | src/hw03_smalbadger_sfarris.java:922-929 | the mean lies in 0..20 with a blank and is 0 at the goal |
| Heuristics.MisplacedStep | src/heuristics/MisplacedTiles.java:23-29 | one move changes the misplaced count by at most one |
| Heuristics.ManhattanStep | src/heuristics/ManhattanDistance.java:24-36 | one move changes the Manhattan distance by at most one |
| Heuristics.MisplacedAdmissible | src/heuristics/Heuristic.java:11-15 | misplaced tiles never exceed the length of any move sequence reaching the goal |
| Heuristics.ManhattanAdmissible | src/heuristics/Heuristic.java:11-15 | Manhattan distance never exceeds the length of any move sequence reaching the goal |
| Heuristics.MisplacedWithBlank | src/hw03_smalbadger.java:640-652 | the blank-counting misplaced count lies in 0..9 |
| Heuristics.MoveChangesTwoCells | src/database/State.java:257-298 | a legal move changes exactly two cells of a valid board |
| Heuristics.MisplacedWithBlankCounts | src/hw03_smalbadger.java:640-652 | it counts every differing cell, is 0 at the goal, and exceeds the blank-skipping count by one exactly when the blank is out of place |
| Heuristics.MisplacedWithBlankOverestimates | src/hw03_smalbadger.java:640-652 | one move from the goal it returns 2, more than the single move needed |
| Heuristics.ManhattanAsWritten | src/hw03_smalbadger.java:662-676 | the variant with 1-based goal coordinates that counts the blank lies in 0..54 |
| Heuristics.ManhattanAsWrittenAtGoal | src/hw03_smalbadger.java:662-676 | the variant with 1-based goal coordinates that counts the blank returns 18 at the goal |
| Heuristics.EvalAtGoal | src/heuristics/Heuristic.java:11-15 | the zero, misplaced, Manhattan, max and mean heuristics return exactly 0 at their goal |
| Heuristics.Eval | src/heuristics/Heuristic.java:9-18 | every heuristic is non-negative; the default, `NoHeuristic` and the unfinished custom heuristic return 0 |
| Heuristics.EvalAdmissible | src/heuristics/Heuristic.java:11-15 | for the admissible kinds, `eval` never exceeds the length of any move sequence from the board to the goal |
| Heuristics.ZeroIgnoresGoal | src/heuristics/NoHeuristic.java:17-23 | the zero heuristic gives the same value for every board and every goal |
| Paths.Single | src/database/Path.java:22-30 | the new path holds one state, has length 0 and ends at that state |
| Paths.GetStateAt | src/database/Path.java:49-58 | null exactly when the index is outside the path; otherwise the state at that index |
| Paths.Length | src/database/Path.java:93-98 | on a non-empty path the length is a valid index whose state is the terminal one, and the next index is outside the path |
| Paths.Terminal | src/database/Path.java:114-119 | the terminal state is on the path and is what `getStateAt` returns at the last index |
| Paths.GetStateAtEnds | src/database/Path.java:49-58 | index 0 gives the first state, index `length()` the terminal one, indices just outside give null |
| Paths.ContainsFrom | src/database/Path.java:67-72 | the scan from index i answers true exactly when some later state equals the one sought |
| Paths.Contains | src/database/Path.java:60-73 | true exactly when the state is on the path |
| Paths.Add | src/database/Path.java:32-47 | a state already on the path gives false and the path unchanged; otherwise the state is appended, true is returned, length grows by one and the state is terminal |
| Paths.Copy | src/database/Path.java:121-127 | the copy has the same states in the same order |
| Paths.CopyThenAdd | src/database/Path.java:121-127 | adding to a copy keeps the original's states as its prefix |
| Paths.AddKeepsDistinct | src/database/Path.java:32-47 | `add` keeps a path free of repeated states |
| Paths.BuiltPathsAreDistinct | src/database/Path.java:32-47 | any sequence of `add` calls keeps a path free of repeated states |
| Paths.SingleThenAdds | src/database/Path.java:22-47 | a path built from one state by `add` calls starts at that state and never repeats a state |
| Paths.PathOperators | src/database/Path.java:75-91 | `getOperators` returns `length()` entries, null entries included |
| Paths.PathOperatorsAt | src/database/Path.java:84-88 | entry i is `getOperator` from state i to state i+1 |
| Paths.ReplayReachesTerminal | src/database/Path.java:75-91 | on a path of adjacent states every entry is an operator, and replaying them from the first state reaches the terminal state |
| Paths.Estimate | src/database/Path.java:100-112 | the estimate is the length plus the heuristic at the terminal state, and just the length for the zero heuristic |
| Paths.EstimateIsLowerBound | src/database/Path.java:100-112 | with an admissible heuristic the estimate never exceeds the length of any continuation of the path to the goal |
| Paths.CompareTo | src/database/Path.java:129-145 | 1, 0 or -1 exactly as the first estimate is greater than, equal to or less than the second |
| Paths.CompareToIsOrder | src/database/Path.java:129-145 | the comparison is antisymmetric and transitive |
| Paths.Truncate | src/hw03_smalbadger.java:598-600 | a cast from float to int rounds toward zero |
| Paths.CompareTruncated | src/hw03_smalbadger.java:598-600 | a positive or negative truncated difference implies the same strict order of the estimates |
| Paths.CompareTruncatedAgrees | src/hw03_smalbadger.java:598-600 | for whole-valued heuristics the truncated difference has the sign of the exact comparison |
| Search.Extend | src/control_strategies/AStar.java:57-71 | every new path is the best path plus one neighbour not on it, and every such neighbour yields a new path |
| Search.Prune | src/control_strategies/AStar.java:74-83 | kept paths end at distinct states and come from the input; every input terminal is represented by a path no costlier; each kept path is the first cheapest one for its terminal |
| Search.PruneResult | src/control_strategies/AStar.java:79-83 | the pruning invariant after the last path gives the three guarantees of the pruning step |
| Search.PruneAndSort | src/control_strategies/AStar.java:74-86 | pruning then sorting gives a queue with distinct terminals, ascending by estimate, drawn from the candidates, in which every candidate's terminal is reached by a path no costlier |
| Search.Insert | src/control_strategies/AStar.java:86 | insertion into a sorted queue keeps it sorted and adds exactly that path |
| Search.SortByKey | src/control_strategies/AStar.java:86 | the sorted queue is ascending by estimate and a permutation of its input |
| Search.SortKeepsDistinctTerminals | src/control_strategies/AStar.java:86 | sorting keeps the terminal states pairwise distinct |
| Search.ExtendKeepsGood | src/control_strategies/AStar.java:63-71 | extending a path that starts at the initial state, moves legally and repeats no state by a fresh neighbour keeps all three |
| Search.ExtendAllGood | src/control_strategies/AStar.java:57-71 | every path of the extension step keeps those three properties |
| Search.Expand | src/control_strategies/AStar.java:56-86 | one pass of the loop body gives a queue of good paths with distinct terminals, sorted by estimate, each either an old queue path or the removed head plus one state; every terminal of the old queue's tail and of the head's extensions is reached by a queue path with no greater estimate; the registry grows by exactly the head's neighbours |
| Search.AStar | src/control_strategies/AStar.java:46-93 | the frontier stays good, pruned and sorted; the result is the head path exactly when it ends at the goal, and null exactly when the frontier is empty; for initial = goal the zero-length path is returned; null means no sequence of moves takes the initial state to the goal; every board the search adds to the registry is a valid board of the initial board's parity; with no iteration the frontier is the start path and the registry is unchanged; after one, the initial board's neighbours are registered |
| Search.SuccessorsReachable | src/database/State.java:203-215 | every neighbour of a board with the initial board's parity is a valid board with that parity |
| Search.RegistryStep | src/control_strategies/AStar.java:57-58 | the boards one pass adds to the registry, the neighbours of the best path's terminal, are valid and of the initial board's parity |
| Search.AppendRecorded | src/control_strategies/AStar.java:66-69 | a copy of the best path with a registered state added has every state after the first registered, and begins with the best path |
| Search.CoveredTerminals | src/control_strategies/AStar.java:74-83 | every candidate's terminal is the terminal of a path the pruning keeps |
| Search.TerminalsStayCovered | src/control_strategies/AStar.java:57-83 | every terminal of the old queue is the removed head's or a terminal of the new queue |
| Search.HeadSuccessorsCovered | src/control_strategies/AStar.java:57-71 | every neighbour of the head's terminal is already expanded, is that terminal, or ends a path of the new queue |
| Search.NextPassesExpanded | src/control_strategies/AStar.java:57-71 | every state of a new queue path before its terminal has been expanded |
| Search.ExploredStep | src/control_strategies/AStar.java:51-87 | one pass keeps the exploration invariant: the expanded states exclude the goal, and every move from them ends on an expanded state or a queue terminal |
| Search.ReplayStaysInside | src/database/State.java:257-298 | a sequence of moves from a set of boards closed under legal moves stays in the set |
| Search.ExhaustedMeansUnreachable | src/control_strategies/AStar.java:51-93 | once the queue is empty, no sequence of moves takes the initial state to the goal |
| Search.FoundIsSolution | src/control_strategies/AStar.java:89-93 | a returned path's operators are all non-null, replay from the initial state to the goal, number its length, and the two states pass `canReach` |
| Search.FrontierIsScored | src/control_strategies/AStar.java:86 | every frontier path can be estimated and the frontier is ascending by `estimate` itself |

## Left out

- Console input and output (`io/Input.java`, `io/Output.java` and the `Input`/`Output` classes of both single-file copies), `PuzzleSolver` and the `main` methods: entry-point glue and printing.
- `HeuristicAnalysis`: random sampling and reports.
- `State.generateRandom` and `State.shuffle`: they depend on `java.util.Random`.
- `toString`, `getSummary` and the debug printers: string formatting only.
- `getBoard` (`src/hw03_smalbadger_sfarris.java:649`): the model's board is already the row-major sequence, and `Solvability.getInvCount` (line 946) reads it through `getBoard` just as `Parity.GetInvCount` reads the sequence.
- Moves.Operators: requires `HasBlank`; on a board without a blank `getLocation('-')` returns null and `getOperators` throws a NullPointerException (`src/database/State.java:92-94`), which is not modelled.
- Moves.Transform: requires `HasBlank`, for the same NullPointerException through `getOperators` and `getLocation('-')` (`src/database/State.java:266-270`).
- Heuristics.ManhattanAsWritten: requires every cell of the board, the blank included, to be on the goal; otherwise `getLocation` returns null and `eval` throws a NullPointerException (`src/hw03_smalbadger.java:668-669`), which is not modelled.
- Heuristics.Manhattan: requires every tile of the board to be on the goal; otherwise `getLocation` returns null and `eval` throws a NullPointerException (`src/heuristics/ManhattanDistance.java:31-32`), which is not modelled.
- Board.Hash: requires every cell to be a puzzle symbol (`1`..`8` or the blank). The digits `0` and `9` would also parse, and so would a leading `+` and non-ASCII decimal digits; other characters make `Integer.parseInt` throw a NumberFormatException (`src/database/State.java:199-200`); none of this is modelled.
- `Path.equals` and `Path.hashCode`: they compare states by reference, and the search never calls them. The model's paths are values with structural equality.
- Float arithmetic: all heuristic values are whole numbers or halves, which a Java `float` holds exactly. They are modelled as `real`.
- Board.Hash: proves the value is below 10^9, which fits in an `int`; it does not prove the tighter bound 876543210 for permutations.
- Search.Prune: the kept paths are returned in the order their terminals first appeared. Java's `HashMap.values()` leaves that order unspecified. The choice only matters through the sort that follows.
- Search.SortByKey: a stable insertion sort stands for `List.sort`, which is also stable. Sorting `hw03_smalbadger.java` by the truncating comparator (lines 89 and 598-600) is modelled through `Paths.CompareTruncatedAgrees`: its heuristics are whole-valued, so it orders like the exact comparison.
- Search.AStar: the loop runs at most `fuel` times. Termination of the unbounded Java loop and optimality of the returned path are not proved. The per-iteration invariants, the soundness of a returned path, and that `NoSolution` means the goal is unreachable are proved.
- `Path(ArrayList<State>)`, the constructor from an arbitrary list, is only used by `copy`. It is `Paths.Copy` here.

## Findings

| source | as written | input that shows it | evidently intended | confidence | as-written member | corrected member |
|---|---|---|---|---|---|---|
| src/hw03_smalbadger.java:640-652 | `MisplacedTiles.eval` counts the blank when it is out of place | board `1234567-8` with goal `12345678-`: one move (Right) solves it, but the count is 2 | skip the blank, as `src/heuristics/MisplacedTiles.java:25` does, so the value never exceeds the moves needed | not executed | Heuristics.MisplacedWithBlankOverestimates | Heuristics.MisplacedAdmissible |
| src/hw03_smalbadger.java:662-676 | `ManhattanDistance.eval` compares 0-based cell indices with 1-based goal coordinates and does not skip the blank | any goal board compared with itself gives 18 instead of 0 | subtract 1 from the goal row and column and skip the blank, as `src/heuristics/ManhattanDistance.java:28-32` does | not executed | Heuristics.ManhattanAsWrittenAtGoal | Heuristics.ManhattanAtGoal |

=== FILE: board.dfy ===
/** Optional values, standing in for the Java `null` returns of the puzzle code. */
module Wrappers {
  datatype Option<+T> = None | Some(value: T)
}

/**
  The 8-puzzle board of `database/State.java`.

  The Java class keeps a `char[3][3]`; here a board is its row-major
  flattening, so cell (row, col), 0-based, is at index `3 * row + col`.
  States are immutable values, so "the receiver is unchanged" holds by
  construction.
 */
module Board {
  import opened Wrappers

  type Board = seq<char>

  const Blank: char := '-'

  /** The nine symbols a well-formed board is made of. */
  const Symbols: set<char> := {'1', '2', '3', '4', '5', '6', '7', '8', '-'}

  /** No element occurs twice: the cells of a board, or the states of a path. */
  predicate Distinct<T(==)>(s: seq<T>) {
    forall i, j | 0 <= i < j < |s| :: s[i] != s[j]
  }

  /** A permutation of the nine symbols: what the input layer guarantees. */
  predicate ValidBoard(b: Board) {
    && |b| == 9
    && (forall i | 0 <= i < |b| :: b[i] in Symbols)
    && Distinct(b)
  }

  /** The least a board must satisfy for the blank to be located. */
  predicate HasBlank(b: Board) {
    |b| == 9 && Blank in b
  }

  /** 0-based row and column of cell index `k`. */
  function Row(k: int): int { k / 3 }
  function Col(k: int): int { k % 3 }

  function Abs(x: int): nat { if x < 0 then -x else x }

  /** Number of single-cell steps between two cells of the grid. */
  function GridDistance(i: int, j: int): nat {
    Abs(Row(i) - Row(j)) + Abs(Col(i) - Col(j))
  }

  /**
    `State.getAt`: the symbol at 0-based (row, col). Searching the board for
    that symbol stops at this cell or earlier, and exactly here when the
    board has no repeats, so `getLocation` and `getAt` agree.
   */
  function GetAt(b: Board, row: int, col: int): (c: char)
    requires |b| == 9 && 0 <= row < 3 && 0 <= col < 3
    ensures c in b && IndexOf(b, c).Some? && IndexOf(b, c).value <= 3 * row + col
    ensures Distinct(b) ==> IndexOf(b, c) == Some(3 * row + col)
  {
    IndexOfAtMost(b, 3 * row + col);
    if Distinct(b) then DistinctIndexOf(b, 3 * row + col); b[3 * row + col] else b[3 * row + col]
  }

  /** The first occurrence of a cell's symbol is at that cell or before it. */
  lemma IndexOfAtMost(b: Board, k: nat)
    requires k < |b|
    ensures IndexOf(b, b[k]).Some? && IndexOf(b, b[k]).value <= k
  {
  }

  /** First (row-major) index of `c` in `b`, or None. */
  function IndexOf(b: Board, c: char): (r: Option<nat>)
    ensures r.Some? ==> r.value < |b| && b[r.value] == c && c !in b[..r.value]
    ensures r.None? <==> c !in b
  {
    if |b| == 0 then None
    else if b[0] == c then Some(0)
    else match IndexOf(b[1..], c)
      case None => None
      case Some(i) =>
        assert b[..i + 1] == [b[0]] + b[1..][..i];
        Some(i + 1)
  }

  /** The first occurrence is unique: any index with no earlier `c` is it. */
  lemma IndexOfIsFirst(b: Board, c: char, k: nat)
    requires k < |b| && b[k] == c && c !in b[..k]
    ensures IndexOf(b, c) == Some(k)
  {
    assert forall i | 0 <= i < k :: b[i] == b[..k][i];
    var j := IndexOf(b, c).value;
    assert forall i | 0 <= i < j :: b[i] == b[..j][i];
  }

  /**
    `State.getLocation`: 1-based (row, column) of the first cell holding
    `search` in row-major order, or None when the symbol is absent.
   */
  function Location(b: Board, search: char): (r: Option<(int, int)>)
    requires |b| == 9
    ensures r.None? <==> search !in b
    ensures r.Some? ==>
              && 1 <= r.value.0 <= 3 && 1 <= r.value.1 <= 3
              && GetAt(b, r.value.0 - 1, r.value.1 - 1) == search
              && forall k | 0 <= k < 3 * (r.value.0 - 1) + (r.value.1 - 1) :: b[k] != search
  {
    match IndexOf(b, search)
    case None => None
    case Some(k) =>
      assert forall i | 0 <= i < k :: b[i] == b[..k][i];
      Some((k / 3 + 1, k % 3 + 1))
  }

  /** Every cell of a distinct board is the first occurrence of its symbol. */
  lemma DistinctIndexOf(b: Board, k: nat)
    requires Distinct(b) && k < |b|
    ensures IndexOf(b, b[k]) == Some(k)
  {
    forall i | 0 <= i < k ensures b[..k][i] != b[k] {
    }
    IndexOfIsFirst(b, b[k], k);
  }

  /** A distinct sequence has as many distinct elements as cells. */
  lemma {:induction false} DistinctCardinality(s: seq<char>)
    requires Distinct(s)
    ensures |set i | 0 <= i < |s| :: s[i]| == |s|
  {
    if |s| > 0 {
      var t := s[1..];
      assert Distinct(t) by {
        forall i, j | 0 <= i < j < |t| ensures t[i] != t[j] {
          assert t[i] == s[i + 1] && t[j] == s[j + 1];
        }
      }
      DistinctCardinality(t);
      var all := set i | 0 <= i < |s| :: s[i];
      var rest := set i | 0 <= i < |t| :: t[i];
      assert all == {s[0]} + rest by {
        forall x | x in all ensures x in {s[0]} + rest {
          var i :| 0 <= i < |s| && s[i] == x;
          if i > 0 { assert t[i - 1] == x; }
        }
        forall x | x in rest ensures x in all {
          var i :| 0 <= i < |t| && t[i] == x;
          assert s[i + 1] == x;
        }
      }
      assert forall i | 0 <= i < |t| :: t[i] == s[i + 1] != s[0];
    }
  }

  /** Pigeonhole: nine distinct symbols out of nine means every symbol, blank included, is present. */
  lemma {:induction false} ValidBoardHasEverySymbol(b: Board)
    requires ValidBoard(b)
    ensures forall c | c in Symbols :: c in b
    ensures HasBlank(b)
  {
    var present := set i | 0 <= i < |b| :: b[i];
    assert Symbols <= present by {
      DistinctCardinality(b);
      assert present <= Symbols;
      assert |Symbols| == 9;
      var absent := Symbols - present;
      assert Symbols == present + absent && present !! absent;
      assert |Symbols| == |present| + |absent|;
      assert absent == {};
    }
    forall c | c in Symbols ensures c in b {
      assert c in present;
      var i :| 0 <= i < |b| && b[i] == c;
    }
  }

  /**
    `State.equals`: cell-by-cell comparison over the 3x3 grid. On boards it
    coincides with value equality.
   */
  method Equals(a: Board, b: Board) returns (r: bool)
    requires |a| == 9 && |b| == 9
    ensures r <==> a == b
  {
    for i := 0 to 3
      invariant forall k | 0 <= k < 3 * i :: a[k] == b[k]
    {
      for j := 0 to 3
        invariant forall k | 0 <= k < 3 * i + j :: a[k] == b[k]
      {
        if GetAt(a, i, j) != GetAt(b, i, j) {
          return false;
        }
      }
    }
    return true;
  }

  /** The decimal digit a symbol stands for in the hash: blank is 0. */
  function Digit(c: char): (d: nat)
    requires c in Symbols
    ensures d <= 8
    ensures c == Blank <==> d == 0
  {
    if c == Blank then 0 else c as int - '0' as int
  }

  lemma DigitInjective(c: char, e: char)
    requires c in Symbols && e in Symbols && Digit(c) == Digit(e)
    ensures c == e
  {
  }

  /** Integer.parseInt of the symbols read left to right, blank read as 0. */
  function DecimalValue(s: seq<char>): (v: nat)
    requires forall i | 0 <= i < |s| :: s[i] in Symbols
  {
    if |s| == 0 then 0 else 10 * DecimalValue(s[..|s| - 1]) + Digit(s[|s| - 1])
  }

  function Pow10(n: nat): nat {
    if n == 0 then 1 else 10 * Pow10(n - 1)
  }

  lemma {:induction false} DecimalValueBound(s: seq<char>)
    requires forall i | 0 <= i < |s| :: s[i] in Symbols
    ensures DecimalValue(s) < Pow10(|s|)
  {
    if |s| > 0 {
      DecimalValueBound(s[..|s| - 1]);
    }
  }

  /** Two equally long symbol strings with the same decimal value are the same string. */
  lemma {:induction false} DecimalValueInjective(s: seq<char>, t: seq<char>)
    requires forall i | 0 <= i < |s| :: s[i] in Symbols
    requires forall i | 0 <= i < |t| :: t[i] in Symbols
    requires |s| == |t| && DecimalValue(s) == DecimalValue(t)
    ensures s == t
  {
    if |s| > 0 {
      var n := |s| - 1;
      var x, y := DecimalValue(s[..n]), DecimalValue(t[..n]);
      var d, e := Digit(s[n]), Digit(t[n]);
      assert 10 * x + d == 10 * y + e;
      assert x == y && d == e;
      DecimalValueInjective(s[..n], t[..n]);
      DigitInjective(s[n], t[n]);
      assert s == s[..n] + [s[n]] && t == t[..n] + [t[n]];
    }
  }

  /**
    `State.hashCode`: the board read row by row as a nine-digit decimal with
    the blank as 0. Equal boards hash equally (it is a function), boards over
    the nine symbols hash distinctly, and the value fits in a Java `int`.
   */
  function Hash(b: Board): (h: nat)
    requires |b| == 9 && forall i | 0 <= i < 9 :: b[i] in Symbols
    ensures h < 1000000000 < 0x7fff_ffff
  {
    DecimalValueBound(b);
    DecimalValue(b)
  }

  lemma HashInjective(a: Board, b: Board)
    requires |a| == 9 && forall i | 0 <= i < 9 :: a[i] in Symbols
    requires |b| == 9 && forall i | 0 <= i < 9 :: b[i] in Symbols
    ensures Hash(a) == Hash(b) <==> a == b
  {
    if Hash(a) == Hash(b) {
      DecimalValueInjective(a, b);
    }
  }

  /**
    `State.replaceWithWildCards`: every cell whose symbol is listed becomes
    `'*'`; the others keep their symbol.
   */
  function ReplaceWithWildCards(b: Board, chars: seq<char>): (r: Board)
    requires |b| == 9
    ensures |r| == 9
    ensures forall k | 0 <= k < 9 :: r[k] == (if b[k] in chars then '*' else b[k])
  {
    seq(9, k requires 0 <= k < 9 => if b[k] in chars then '*' else b[k])
  }

  /** Masking twice is masking once with both lists. */
  lemma WildCardsCompose(b: Board, first: seq<char>, second: seq<char>)
    requires |b| == 9
    ensures ReplaceWithWildCards(ReplaceWithWildCards(b, first), second)
         == ReplaceWithWildCards(b, first + second)
  {
    var lhs := ReplaceWithWildCards(ReplaceWithWildCards(b, first), second);
    var rhs := ReplaceWithWildCards(b, first + second);
    forall k | 0 <= k < 9 ensures lhs[k] == rhs[k] {
      assert b[k] in first + second <==> b[k] in first || b[k] in second;
    }
  }
}

=== FILE: heuristics.dfy ===
/**
  The heuristics of `heuristics/` and of the two single-file copies.

  Java computes them in `float`; every value here is a small integer or,
  for the mean composite, a half-integer, so integers (and `real` for the
  instance-level `Eval`) represent them exactly.
 */
module Heuristics {
  import opened Wrappers
  import opened Board
  import opened Moves

  /** Sum of a sequence of integers, last term added last. */
  function Sum(s: seq<int>): int {
    if |s| == 0 then 0 else Sum(s[..|s| - 1]) + s[|s| - 1]
  }

  lemma {:induction false} SumBounds(s: seq<int>, lo: int, hi: int)
    requires forall i | 0 <= i < |s| :: lo <= s[i] <= hi
    ensures |s| * lo <= Sum(s) <= |s| * hi
  {
    if |s| > 0 {
      var n := |s| - 1;
      assert forall i | 0 <= i < n :: s[..n][i] == s[i];
      SumBounds(s[..n], lo, hi);
      assert |s| * lo == n * lo + lo && |s| * hi == n * hi + hi;
    }
  }

  /** Replacing one term changes the sum by the difference. */
  lemma {:induction false} SumUpdate(s: seq<int>, i: int, v: int)
    requires 0 <= i < |s|
    ensures Sum(s[i := v]) == Sum(s) - s[i] + v
    decreases |s|
  {
    var n := |s| - 1;
    if i == n {
      assert s[i := v][..n] == s[..n];
    } else {
      assert s[i := v][..n] == s[..n][i := v];
      SumUpdate(s[..n], i, v);
    }
  }

  /** Two sequences that differ in at most cells `i` and `j`. */
  lemma TwoCellSum(s: seq<int>, s2: seq<int>, i: int, j: int)
    requires |s| == |s2| && 0 <= i < |s| && 0 <= j < |s| && i != j
    requires forall m | 0 <= m < |s| && m != i && m != j :: s2[m] == s[m]
    ensures Sum(s2) == Sum(s) - s[i] - s[j] + s2[i] + s2[j]
  {
    SumUpdate(s, i, s2[i]);
    SumUpdate(s[i := s2[i]], j, s2[j]);
    assert s[i := s2[i]][j := s2[j]] == s2;
  }

  /** With one zero term, the other terms bound the sum. */
  lemma SumWithZero(s: seq<int>, i: int, hi: int)
    requires 0 <= i < |s| && s[i] == 0
    requires forall j | 0 <= j < |s| :: 0 <= s[j] <= hi
    ensures 0 <= Sum(s) <= (|s| - 1) * hi
  {
    SumUpdate(s, i, hi);
    SumBounds(s[i := hi], 0, hi);
    SumBounds(s, 0, hi);
  }

  /** A sum of 0/1 terms counts the ones. */
  lemma {:induction false} SumCountsOnes(s: seq<int>)
    requires forall i | 0 <= i < |s| :: s[i] == 0 || s[i] == 1
    ensures Sum(s) == |set i | 0 <= i < |s| && s[i] == 1|
  {
    if |s| > 0 {
      var n := |s| - 1;
      var t := s[..n];
      SumCountsOnes(t);
      var before := set i | 0 <= i < n && t[i] == 1;
      var after := set i | 0 <= i < |s| && s[i] == 1;
      assert before == set i | 0 <= i < n && s[i] == 1;
      if s[n] == 1 {
        assert after == before + {n};
      } else {
        assert after == before;
      }
    }
  }

  // ---------------------------------------------------------------- misplaced tiles

  /** 1 where `src` has a tile the goal does not have there. */
  function MisplacedTerms(src: Board, goal: Board): (t: seq<int>)
    requires |src| == 9 && |goal| == 9
    ensures |t| == 9
  {
    seq(9, k requires 0 <= k < 9 => if src[k] != Blank && src[k] != goal[k] then 1 else 0)
  }

  /** `MisplacedTiles.eval`: walk the grid, count the non-blank cells that differ from `goal`. */
  function Misplaced(src: Board, goal: Board): (h: int)
    requires |src| == 9 && |goal| == 9
    ensures 0 <= h <= 9
  {
    SumBounds(MisplacedTerms(src, goal), 0, 1);
    Sum(MisplacedTerms(src, goal))
  }

  /** The cells a misplaced-tiles count is meant to count. */
  function MisplacedCells(src: Board, goal: Board): set<int>
    requires |src| == 9 && |goal| == 9
  {
    set k | 0 <= k < 9 && src[k] != Blank && src[k] != goal[k]
  }

  /**
    The count is exactly the number of misplaced non-blank cells, so with a
    blank it is at most 8, and it is 0 at the goal.
   */
  lemma MisplacedCounts(src: Board, goal: Board)
    requires |src| == 9 && |goal| == 9
    ensures Misplaced(src, goal) == |MisplacedCells(src, goal)|
    ensures Blank in src ==> Misplaced(src, goal) <= 8
    ensures Misplaced(goal, goal) == 0
  {
    var t := MisplacedTerms(src, goal);
    SumCountsOnes(t);
    assert (set k | 0 <= k < 9 && t[k] == 1) == MisplacedCells(src, goal);
    if Blank in src {
      var i :| 0 <= i < 9 && src[i] == Blank;
      SumWithZero(t, i, 1);
    }
    SumBounds(MisplacedTerms(goal, goal), 0, 0);
  }

  /**
    The blank is skipped: what the goal holds where `src` has its blank
    does not change the count.
   */
  lemma MisplacedIgnoresBlankCell(src: Board, goal: Board, goal': Board)
    requires |src| == 9 && |goal| == 9 && |goal'| == 9
    requires forall k | 0 <= k < 9 && src[k] != Blank :: goal'[k] == goal[k]
    ensures Misplaced(src, goal') == Misplaced(src, goal)
  {
    assert MisplacedTerms(src, goal') == MisplacedTerms(src, goal);
  }

  // ---------------------------------------------------------------- Manhattan distance

  /** Every tile of `src` occurs in `goal`, so `getLocation` finds it. */
  predicate TilesLocatable(src: Board, goal: Board) {
    && |src| == 9 && |goal| == 9
    && forall k | 0 <= k < 9 :: src[k] != Blank ==> src[k] in goal
  }

  /** Distance of the tile in cell `k` from its (1-based, converted to 0-based) goal location. */
  function ManhattanTerm(src: Board, goal: Board, k: int): (d: int)
    requires TilesLocatable(src, goal) && 0 <= k < 9
    ensures 0 <= d <= 4
  {
    if src[k] == Blank then 0
    else
      var location := Location(goal, src[k]).value;
      var goalRow, goalCol := location.0 - 1, location.1 - 1;
      Abs(Row(k) - goalRow) + Abs(Col(k) - goalCol)
  }

  function ManhattanTerms(src: Board, goal: Board): (t: seq<int>)
    requires TilesLocatable(src, goal)
    ensures |t| == 9
  {
    seq(9, k requires 0 <= k < 9 => ManhattanTerm(src, goal, k))
  }

  /** `ManhattanDistance.eval`: the sum over the tiles of their grid distance from the goal. */
  function Manhattan(src: Board, goal: Board): (h: int)
    requires TilesLocatable(src, goal)
    ensures 0 <= h <= 36
  {
    SumBounds(ManhattanTerms(src, goal), 0, 4);
    Sum(ManhattanTerms(src, goal))
  }

  /** A tile's term is its grid distance to the first goal cell holding it. */
  lemma ManhattanTermIsDistance(src: Board, goal: Board, k: int)
    requires TilesLocatable(src, goal) && 0 <= k < 9 && src[k] != Blank
    ensures ManhattanTerm(src, goal, k) == GridDistance(k, IndexOf(goal, src[k]).value)
  {
  }

  /** With a blank in `src` the distance is at most 32. */
  lemma ManhattanBounds(src: Board, goal: Board)
    requires TilesLocatable(src, goal)
    ensures Blank in src ==> Manhattan(src, goal) <= 32
  {
    if Blank in src {
      var i :| 0 <= i < 9 && src[i] == Blank;
      SumWithZero(ManhattanTerms(src, goal), i, 4);
    }
  }

  lemma DistinctTilesLocatable(goal: Board)
    requires |goal| == 9
    ensures TilesLocatable(goal, goal)
  {
    assert forall k | 0 <= k < 9 :: goal[k] in goal;
  }

  /** Every tile of the goal itself is at distance 0. */
  lemma ManhattanAtGoal(goal: Board)
    requires |goal| == 9 && Distinct(goal)
    ensures TilesLocatable(goal, goal) && Manhattan(goal, goal) == 0
  {
    DistinctTilesLocatable(goal);
    var t := ManhattanTerms(goal, goal);
    forall k | 0 <= k < 9 ensures t[k] == 0 {
      if goal[k] != Blank {
        DistinctIndexOf(goal, k);
        ManhattanTermIsDistance(goal, goal, k);
      }
    }
    SumBounds(t, 0, 0);
  }

  lemma ValidTilesLocatable(src: Board, goal: Board)
    requires |src| == 9 && (forall k | 0 <= k < 9 :: src[k] in Symbols) && ValidBoard(goal)
    ensures TilesLocatable(src, goal)
    ensures forall k | 0 <= k < 9 :: src[k] in goal
  {
    ValidBoardHasEverySymbol(goal);
  }

  // ---------------------------------------------------------------- composites

  /** `CompositeHeuristic.eval`: the larger of the two heuristics for the same goal. */
  function Composite(src: Board, goal: Board): (h: int)
    requires TilesLocatable(src, goal)
    ensures h >= Misplaced(src, goal) && h >= Manhattan(src, goal)
    ensures h == Misplaced(src, goal) || h == Manhattan(src, goal)
  {
    var misplaced, manhattan := Misplaced(src, goal), Manhattan(src, goal);
    if misplaced >= manhattan then misplaced else manhattan
  }

  /** The composite is 0 at the goal and at most 32 on a board with a blank. */
  lemma CompositeBounds(src: Board, goal: Board)
    requires TilesLocatable(src, goal)
    ensures 0 <= Composite(src, goal)
    ensures Blank in src ==> Composite(src, goal) <= 32
    ensures Distinct(goal) && src == goal ==> Composite(src, goal) == 0
  {
    MisplacedCounts(src, goal);
    ManhattanBounds(src, goal);
    if Distinct(goal) && src == goal {
      ManhattanAtGoal(goal);
    }
  }

  /**
    `CustomHeuristic.eval` of hw03_smalbadger_sfarris: the mean of the two,
    a half-integer between them, so never above the composite.
   */
  function Mean(src: Board, goal: Board): (h: real)
    requires TilesLocatable(src, goal)
    ensures 2.0 * h == (Misplaced(src, goal) + Manhattan(src, goal)) as real
    ensures h <= Composite(src, goal) as real
    ensures h >= Misplaced(src, goal) as real || h >= Manhattan(src, goal) as real
  {
    (Misplaced(src, goal) as real + Manhattan(src, goal) as real) / 2.0
  }

  /** The mean lies in [0, 20] for a board with a blank and is 0 at the goal. */
  lemma MeanBounds(src: Board, goal: Board)
    requires TilesLocatable(src, goal)
    ensures 0.0 <= Mean(src, goal)
    ensures Blank in src ==> Mean(src, goal) <= 20.0
    ensures Distinct(goal) && src == goal ==> Mean(src, goal) == 0.0
  {
    MisplacedCounts(src, goal);
    ManhattanBounds(src, goal);
    if Distinct(goal) && src == goal {
      ManhattanAtGoal(goal);
    }
  }

  // ---------------------------------------------------------------- admissibility

  /** Each move changes the misplaced count by at most one. */
  lemma MisplacedStep(b: Board, goal: Board, o: Op)
    requires ValidBoard(b) && HasBlank(b) && |goal| == 9 && o in Operators(b)
    ensures var r := Transform(b, o).value;
            Misplaced(b, goal) <= Misplaced(r, goal) + 1 && Misplaced(r, goal) <= Misplaced(b, goal) + 1
  {
    var r := Transform(b, o).value;
    var k, t := BlankIndex(b), Target(BlankIndex(b), o);
    TwoCellSum(MisplacedTerms(b, goal), MisplacedTerms(r, goal), k, t);
  }

  /** Triangle inequality of the grid distance. */
  lemma GridTriangle(a: int, b: int, c: int)
    ensures GridDistance(a, c) <= GridDistance(a, b) + GridDistance(b, c)
  {
  }

  /** Cells holding the same symbol contribute the same distance. */
  lemma ManhattanTermsAgree(b: Board, r: Board, goal: Board, i: int, j: int)
    requires TilesLocatable(b, goal) && TilesLocatable(r, goal) && 0 <= i < 9 && 0 <= j < 9
    requires forall m | 0 <= m < 9 && m != i && m != j :: r[m] == b[m]
    ensures forall m | 0 <= m < 9 && m != i && m != j :: ManhattanTerms(r, goal)[m] == ManhattanTerms(b, goal)[m]
  {
  }

  /** The two cells a move touches: the blank's terms are 0, the moved tile's differ by at most one. */
  lemma ManhattanMovedTile(b: Board, r: Board, goal: Board, k: int, t: int)
    requires TilesLocatable(b, goal) && TilesLocatable(r, goal) && 0 <= k < 9 && 0 <= t < 9
    requires b[k] == Blank && r[t] == Blank && b[t] != Blank && r[k] == b[t] && GridDistance(k, t) == 1
    ensures ManhattanTerms(b, goal)[k] == 0 && ManhattanTerms(r, goal)[t] == 0
    ensures ManhattanTerms(b, goal)[t] <= ManhattanTerms(r, goal)[k] + 1
    ensures ManhattanTerms(r, goal)[k] <= ManhattanTerms(b, goal)[t] + 1
  {
    var g := IndexOf(goal, b[t]).value;
    ManhattanTermIsDistance(b, goal, t);
    ManhattanTermIsDistance(r, goal, k);
    assert ManhattanTerms(b, goal)[t] == GridDistance(t, g);
    assert ManhattanTerms(r, goal)[k] == GridDistance(k, g);
    GridTriangle(k, t, g);
    GridTriangle(t, k, g);
    assert GridDistance(t, k) == 1;
  }

  /** Each move changes the Manhattan distance by at most one. */
  lemma ManhattanStep(b: Board, goal: Board, o: Op)
    requires ValidBoard(b) && HasBlank(b) && ValidBoard(goal) && o in Operators(b)
    ensures var r := Transform(b, o).value;
            && TilesLocatable(b, goal) && TilesLocatable(r, goal)
            && Manhattan(b, goal) <= Manhattan(r, goal) + 1 && Manhattan(r, goal) <= Manhattan(b, goal) + 1
  {
    var r := Transform(b, o).value;
    TransformKeepsSymbols(b, o);
    ValidTilesLocatable(b, goal);
    ValidTilesLocatable(r, goal);
    var k, t := BlankIndex(b), Target(BlankIndex(b), o);
    assert Swapped(b, r, k, t);
    ManhattanMovedTile(b, r, goal, k, t);
    ManhattanTermsAgree(b, r, goal, k, t);
    TwoCellSum(ManhattanTerms(b, goal), ManhattanTerms(r, goal), k, t);
  }

  /** Misplaced tiles never overestimate: reaching the goal takes at least that many moves. */
  lemma {:induction false} MisplacedAdmissible(src: Board, goal: Board, ops: seq<Op>)
    requires ValidBoard(src) && HasBlank(src) && |goal| == 9 && Replay(src, ops) == Some(goal)
    ensures Misplaced(src, goal) <= |ops|
    decreases |ops|
  {
    ValidBoardHasEverySymbol(src);
    if |ops| == 0 {
      MisplacedCounts(src, goal);
    } else {
      var n := Transform(src, ops[0]).value;
      TransformKeepsSymbols(src, ops[0]);
      MisplacedStep(src, goal, ops[0]);
      MisplacedAdmissible(n, goal, ops[1..]);
    }
  }

  /** Manhattan distance never overestimates either. */
  lemma {:induction false} ManhattanAdmissible(src: Board, goal: Board, ops: seq<Op>)
    requires ValidBoard(src) && HasBlank(src) && ValidBoard(goal) && Replay(src, ops) == Some(goal)
    ensures TilesLocatable(src, goal) && Manhattan(src, goal) <= |ops|
    decreases |ops|
  {
    ValidBoardHasEverySymbol(src);
    ValidTilesLocatable(src, goal);
    if |ops| == 0 {
      ManhattanAtGoal(goal);
    } else {
      var n := Transform(src, ops[0]).value;
      TransformKeepsSymbols(src, ops[0]);
      ManhattanStep(src, goal, ops[0]);
      ManhattanAdmissible(n, goal, ops[1..]);
    }
  }

  // ---------------------------------------------------------------- hw03_smalbadger variants

  /** `MisplacedTiles.eval` of hw03_smalbadger: every differing cell, the blank's included. */
  function MisplacedWithBlank(src: Board, goal: Board): (h: int)
    requires |src| == 9 && |goal| == 9
    ensures 0 <= h <= 9
  {
    var t := seq(9, k requires 0 <= k < 9 => if src[k] != goal[k] then 1 else 0);
    SumBounds(t, 0, 1);
    Sum(t)
  }

  /**
    It counts every differing cell, which is the non-blank count plus one
    whenever the blank is out of place; it is 0 at the goal.
   */
  lemma MisplacedWithBlankCounts(src: Board, goal: Board)
    requires HasBlank(src) && |goal| == 9
    ensures MisplacedWithBlank(src, goal) == |set k | 0 <= k < 9 && src[k] != goal[k]|
    ensures MisplacedWithBlank(goal, goal) == 0
    ensures Distinct(src) ==>
              MisplacedWithBlank(src, goal)
              == Misplaced(src, goal) + (if goal[BlankIndex(src)] != Blank then 1 else 0)
  {
    var t := seq(9, k requires 0 <= k < 9 => if src[k] != goal[k] then 1 else 0);
    SumCountsOnes(t);
    assert (set k | 0 <= k < 9 && t[k] == 1) == set k | 0 <= k < 9 && src[k] != goal[k];
    SumBounds(seq(9, k requires 0 <= k < 9 => if goal[k] != goal[k] then 1 else 0), 0, 0);
    if Distinct(src) {
      var i := BlankIndex(src);
      var m := MisplacedTerms(src, goal);
      SumUpdate(m, i, t[i]);
      assert forall j | 0 <= j < 9 && j != i :: src[j] != Blank;
      assert m[i := t[i]] == t;
    }
  }

  /**
    One move away from the goal the blank and the moved tile are both out of
    place, so the count is 2 where a single move suffices.
   */
  lemma MisplacedWithBlankOverestimates(src: Board, o: Op)
    requires ValidBoard(src) && HasBlank(src) && o in Operators(src)
    ensures var goal := Transform(src, o).value;
            Replay(src, [o]) == Some(goal) && MisplacedWithBlank(src, goal) == 2 > |[o]|
  {
    var goal := Transform(src, o).value;
    ReplaySingle(src, o);
    MoveChangesTwoCells(src, o);
    MisplacedWithBlankCounts(src, goal);
  }

  /** A legal move changes exactly two cells: the blank's and the moved tile's. */
  lemma MoveChangesTwoCells(src: Board, o: Op)
    requires ValidBoard(src) && HasBlank(src) && o in Operators(src)
    ensures |set m | 0 <= m < 9 && src[m] != Transform(src, o).value[m]| == 2
  {
    var goal := Transform(src, o).value;
    var k, t := BlankIndex(src), Target(BlankIndex(src), o);
    assert k != t && Swapped(src, goal, k, t);
    assert src[k] != src[t];
    SwapDiffers(src, goal, k, t);
    assert |{k, t}| == 2;
  }

  /** Replaying a single legal move is that move. */
  lemma ReplaySingle(src: Board, o: Op)
    requires HasBlank(src) && o in Operators(src)
    ensures Replay(src, [o]) == Transform(src, o)
  {
    assert [o][1..] == [];
  }

  /** Exchanging two different symbols changes exactly those two cells. */
  lemma SwapDiffers(b: Board, r: Board, i: int, j: int)
    requires |b| == 9 && 0 <= i < 9 && 0 <= j < 9 && i != j && Swapped(b, r, i, j) && b[i] != b[j]
    ensures (set m | 0 <= m < 9 && b[m] != r[m]) == {i, j}
  {
  }

  /** Every cell of `src`, blank included, occurs in `goal`. */
  predicate CellsLocatable(src: Board, goal: Board) {
    && |src| == 9 && |goal| == 9
    && forall k | 0 <= k < 9 :: src[k] in goal
  }

  /**
    `ManhattanDistance.eval` of hw03_smalbadger: the 1-based goal row and
    column are compared with 0-based loop indices, and the blank is not skipped.
   */
  function ManhattanAsWritten(src: Board, goal: Board): (h: int)
    requires CellsLocatable(src, goal)
    ensures 0 <= h <= 54
  {
    var t := seq(9, k requires 0 <= k < 9 =>
      var location := Location(goal, src[k]).value;
      Abs(Row(k) - location.0) + Abs(Col(k) - location.1));
    SumBounds(t, 0, 6);
    Sum(t)
  }

  /** At the goal every cell, blank included, is one row and one column off: 18 instead of 0. */
  lemma ManhattanAsWrittenAtGoal(goal: Board)
    requires |goal| == 9 && Distinct(goal)
    ensures CellsLocatable(goal, goal) && ManhattanAsWritten(goal, goal) == 18
  {
    assert CellsLocatable(goal, goal);
    var t := seq(9, k requires 0 <= k < 9 =>
      var location := Location(goal, goal[k]).value;
      Abs(Row(k) - location.0) + Abs(Col(k) - location.1));
    forall k | 0 <= k < 9 ensures t[k] == 2 {
      DistinctIndexOf(goal, k);
    }
    SumBounds(t, 2, 2);
  }

  // ---------------------------------------------------------------- heuristic instances

  /**
    The heuristic classes. `Zero` is `NoHeuristic`, the interface's default
    `eval`, and hw03_smalbadger's unfinished `CustomHeuristic`; `MeanOf` is
    hw03_smalbadger_sfarris's `CustomHeuristic`.
   */
  datatype Kind =
    | Zero
    | MisplacedTiles
    | ManhattanDistance
    | MaxOf
    | MeanOf
    | MisplacedTilesWithBlank
    | ManhattanDistanceAsWritten

  /** A heuristic object: its class and the goal fixed when it was constructed. */
  datatype Heuristic = Heuristic(kind: Kind, goal: Board)

  /** The kinds whose estimate never exceeds the number of moves still needed. */
  predicate Admissible(kind: Kind) {
    kind != MisplacedTilesWithBlank && kind != ManhattanDistanceAsWritten
  }

  /** What `eval(src)` needs so as not to throw. */
  predicate CanEval(h: Heuristic, src: Board) {
    && |src| == 9 && |h.goal| == 9
    && (h.kind in {ManhattanDistance, MaxOf, MeanOf} ==> TilesLocatable(src, h.goal))
    && (h.kind == ManhattanDistanceAsWritten ==> CellsLocatable(src, h.goal))
  }

  /** Boards over the nine symbols can be evaluated against a valid goal by every kind. */
  lemma CanEvalValid(h: Heuristic, src: Board)
    requires |src| == 9 && (forall k | 0 <= k < 9 :: src[k] in Symbols) && ValidBoard(h.goal)
    ensures CanEval(h, src)
  {
    ValidTilesLocatable(src, h.goal);
  }

  /** `Heuristic.eval(src)`, dispatched on the class. */
  function Eval(h: Heuristic, src: Board): (v: real)
    requires CanEval(h, src)
    ensures v >= 0.0
    ensures h.kind == Zero ==> v == 0.0
  {
    match h.kind
    case Zero => 0.0
    case MisplacedTiles => Misplaced(src, h.goal) as real
    case ManhattanDistance => Manhattan(src, h.goal) as real
    case MaxOf => Composite(src, h.goal) as real
    case MeanOf => Mean(src, h.goal)
    case MisplacedTilesWithBlank => MisplacedWithBlank(src, h.goal) as real
    case ManhattanDistanceAsWritten => ManhattanAsWritten(src, h.goal) as real
  }

  /** The shipped heuristics return exactly 0 at their goal, as the interface's contract requires. */
  lemma EvalAtGoal(h: Heuristic)
    requires ValidBoard(h.goal) && Admissible(h.kind)
    ensures CanEval(h, h.goal) && Eval(h, h.goal) == 0.0
  {
    ValidBoardHasEverySymbol(h.goal);
    CanEvalValid(h, h.goal);
    MisplacedCounts(h.goal, h.goal);
    ManhattanAtGoal(h.goal);
  }

  /**
    The interface's contract: for the admissible kinds, `eval(src)` never
    exceeds the length of any move sequence taking `src` to the goal.
   */
  lemma EvalAdmissible(h: Heuristic, src: Board, ops: seq<Op>)
    requires ValidBoard(src) && HasBlank(src) && ValidBoard(h.goal) && Admissible(h.kind)
    requires Replay(src, ops) == Some(h.goal)
    ensures CanEval(h, src) && Eval(h, src) <= |ops| as real
  {
    ValidBoardHasEverySymbol(src);
    CanEvalValid(h, src);
    match h.kind
    case Zero =>
    case MisplacedTiles =>
      MisplacedAdmissible(src, h.goal, ops);
    case ManhattanDistance =>
      ManhattanAdmissible(src, h.goal, ops);
    case MaxOf =>
      MisplacedAdmissible(src, h.goal, ops);
      ManhattanAdmissible(src, h.goal, ops);
    case MeanOf =>
      MisplacedAdmissible(src, h.goal, ops);
      ManhattanAdmissible(src, h.goal, ops);
  }

  /** The zero heuristic ignores both the candidate and the stored goal. */
  lemma ZeroIgnoresGoal(g1: Board, g2: Board, s1: Board, s2: Board)
    requires |g1| == 9 && |g2| == 9 && |s1| == 9 && |s2| == 9
    ensures Eval(Heuristic(Zero, g1), s1) == Eval(Heuristic(Zero, g2), s2)
  {
  }
}

=== FILE: moves.dfy ===
/**
  The move rules of `database/State.java`: which blank moves are legal,
  applying one, recovering the move between two boards, and the neighbours
  of a board. The two hw03 copies of `State` follow the same rules.
 */
module Moves {
  import opened Wrappers
  import opened Board

  /** The direction the blank moves. */
  datatype Op = Up | Down | Left | Right

  /** The move that undoes `o` (the `opposite` of hw03_smalbadger's transform). */
  function Opposite(o: Op): (p: Op)
    ensures p != o
  {
    match o
    case Up => Down
    case Down => Up
    case Left => Right
    case Right => Left
  }

  /** 0-based index of the blank, found the way `getLocation('-')` finds it. */
  function BlankIndex(b: Board): (k: nat)
    requires HasBlank(b)
    ensures k < 9 && b[k] == Blank && Blank !in b[..k]
  {
    IndexOf(b, Blank).value
  }

  /** Whether the blank at cell `k` may move in direction `o` without leaving the grid. */
  predicate Legal(k: int, o: Op) {
    match o
    case Up => Row(k) > 0
    case Down => Row(k) < 2
    case Left => Col(k) > 0
    case Right => Col(k) < 2
  }

  /** `State.getOperators`: the moves that keep the blank on the grid, decided on its 1-based location. */
  function Operators(b: Board): (ops: set<Op>)
    requires HasBlank(b)
    ensures forall o: Op :: o in ops <==> Legal(BlankIndex(b), o)
  {
    var (row, col) := Location(b, Blank).value;
    (if row > 1 then {Up} else {})
    + (if row < 3 then {Down} else {})
    + (if col > 1 then {Left} else {})
    + (if col < 3 then {Right} else {})
  }

  /** A set of moves has as many elements as the directions it contains. */
  lemma MoveSetSize(ops: set<Op>)
    ensures |ops| == (if Up in ops then 1 else 0) + (if Down in ops then 1 else 0)
                   + (if Left in ops then 1 else 0) + (if Right in ops then 1 else 0)
  {
    var u := if Up in ops then {Up} else {};
    var d := if Down in ops then {Down} else {};
    var l := if Left in ops then {Left} else {};
    var r := if Right in ops then {Right} else {};
    forall o: Op ensures o in ops <==> o in u + d + l + r {
      match o
      case Up =>
      case Down =>
      case Left =>
      case Right =>
    }
    assert ops == u + d + l + r;
    assert u !! d && (u + d) !! l && (u + d + l) !! r;
    assert |u + d| == |u| + |d|;
    assert |u + d + l| == |u + d| + |l|;
    assert |u + d + l + r| == |u + d + l| + |r|;
  }

  /** Two legal moves at a corner, three on an edge, four at the centre. */
  lemma OperatorCount(b: Board)
    requires HasBlank(b)
    ensures |Operators(b)| == (if BlankIndex(b) == 4 then 4 else if BlankIndex(b) % 2 == 0 then 2 else 3)
  {
    MoveSetSize(Operators(b));
    var k := BlankIndex(b);
    assert k == 0 || k == 1 || k == 2 || k == 3 || k == 4 || k == 5 || k == 6 || k == 7 || k == 8;
  }

  /** Cell index the blank at `k` trades places with under `o`. */
  function Target(k: int, o: Op): int {
    match o
    case Up => k - 3
    case Down => k + 3
    case Left => k - 1
    case Right => k + 1
  }

  /** A legal move's target is on the grid, one step from the blank. */
  lemma TargetOnGrid(k: int, o: Op)
    requires 0 <= k < 9 && Legal(k, o)
    ensures 0 <= Target(k, o) < 9
    ensures GridDistance(k, Target(k, o)) == 1
    ensures Legal(Target(k, o), Opposite(o))
    ensures Target(Target(k, o), Opposite(o)) == k
  {
  }

  /** `r` is `b` with the cells `i` and `j` exchanged. */
  ghost predicate Swapped(b: Board, r: Board, i: int, j: int)
    requires 0 <= i < |b| && 0 <= j < |b|
  {
    && |r| == |b|
    && r[i] == b[j] && r[j] == b[i]
    && forall m | 0 <= m < |b| && m != i && m != j :: r[m] == b[m]
  }

  /** Exchanging two cells keeps a valid board valid. */
  lemma SwapKeepsValid(b: Board, r: Board, i: int, j: int)
    requires 0 <= i < |b| && 0 <= j < |b| && Swapped(b, r, i, j) && ValidBoard(b)
    ensures ValidBoard(r)
  {
    var perm := (m: int) => if m == i then j else if m == j then i else m;
    assert forall m | 0 <= m < |r| :: r[m] == b[perm(m)];
  }

  /** The two assignments of `transform`: the blank's cell gets the traded tile, the traded cell gets the blank. */
  function Exchange(b: Board, origin: int, trade: int): (r: Board)
    requires 0 <= origin < |b| && 0 <= trade < |b| && origin != trade && b[origin] == Blank
    ensures Swapped(b, r, origin, trade) && r[trade] == Blank && Blank in r
    ensures multiset(r) == multiset(b)
    ensures ValidBoard(b) ==> ValidBoard(r)
  {
    var r := b[origin := b[trade]][trade := Blank];
    assert r[trade] in r;
    assert r == b[origin := b[trade]][trade := b[origin]];
    if ValidBoard(b) then SwapKeepsValid(b, r, origin, trade); r else r
  }

  /**
    `State.transform`: None when `o` is not among the legal moves; otherwise
    the board with the blank and the tile in direction `o` exchanged.
   */
  function Transform(b: Board, o: Op): (r: Option<Board>)
    requires HasBlank(b)
    ensures r.None? <==> o !in Operators(b)
    ensures r.Some? ==>
              var k := BlankIndex(b);
              var t := Target(k, o);
              && 0 <= t < 9 && GridDistance(k, t) == 1
              && Swapped(b, r.value, k, t)
              && r.value[t] == Blank
              && r.value == Exchange(b, k, t)
  {
    if o !in Operators(b) then None
    else
      var location := Location(b, Blank).value;
      var originalRow, originalCol := location.0 - 1, location.1 - 1;
      var tradeRow := if o == Up then originalRow - 1 else if o == Down then originalRow + 1 else originalRow;
      var tradeCol := if o == Left then originalCol - 1 else if o == Right then originalCol + 1 else originalCol;
      var origin := 3 * originalRow + originalCol;
      assert origin == BlankIndex(b);
      var trade := 3 * tradeRow + tradeCol;
      assert trade == Target(origin, o);
      TargetOnGrid(origin, o);
      Some(Exchange(b, origin, trade))
  }

  /** A move keeps the board a permutation of the same symbols, with a blank. */
  lemma TransformKeepsSymbols(b: Board, o: Op)
    requires HasBlank(b) && o in Operators(b)
    ensures var r := Transform(b, o).value;
            && multiset(r) == multiset(b)
            && HasBlank(r)
            && (ValidBoard(b) ==> ValidBoard(r))
  {
    var r := Transform(b, o).value;
    assert r == Exchange(b, BlankIndex(b), Target(BlankIndex(b), o));
  }

  /** On a valid board the moved tile is never the blank, so the blank is where the move put it. */
  lemma TransformBlankIndex(b: Board, o: Op)
    requires ValidBoard(b) && HasBlank(b) && o in Operators(b)
    ensures BlankIndex(Transform(b, o).value) == Target(BlankIndex(b), o)
  {
    var r, k := Transform(b, o).value, BlankIndex(b);
    var t := Target(k, o);
    assert forall m | 0 <= m < t :: r[m] == r[..t][m] && r[m] != Blank;
    IndexOfIsFirst(r, Blank, t);
  }

  /** Exchanging the same two cells twice gives the board back. */
  lemma SwapTwice(b: Board, r: Board, back: Board, i: int, j: int)
    requires 0 <= i < |b| && 0 <= j < |b|
    requires Swapped(b, r, i, j) && Swapped(r, back, j, i)
    ensures back == b
  {
    assert forall m | 0 <= m < |b| :: back[m] == b[m];
  }

  /** The opposite move undoes a move. */
  lemma UndoMove(b: Board, o: Op)
    requires ValidBoard(b) && HasBlank(b) && o in Operators(b)
    ensures var r := Transform(b, o).value;
            Opposite(o) in Operators(r) && Transform(r, Opposite(o)) == Some(b)
  {
    var r, k := Transform(b, o).value, BlankIndex(b);
    var t := Target(k, o);
    TransformBlankIndex(b, o);
    TargetOnGrid(k, o);
    assert Legal(BlankIndex(r), Opposite(o));
    var back := Transform(r, Opposite(o)).value;
    assert Target(BlankIndex(r), Opposite(o)) == k;
    SwapTwice(b, r, back, k, t);
  }

  /** On a valid board different moves give different boards. */
  lemma TransformInjective(b: Board, o1: Op, o2: Op)
    requires ValidBoard(b) && HasBlank(b)
    requires Transform(b, o1).Some? && Transform(b, o1) == Transform(b, o2)
    ensures o1 == o2
  {
    TransformBlankIndex(b, o1);
    TransformBlankIndex(b, o2);
  }

  /** The first of `ops` that is legal and turns `b` into `result`. */
  function FirstProducing(b: Board, result: Board, ops: seq<Op>): (o: Option<Op>)
    requires HasBlank(b)
    ensures o.Some? ==> o.value in ops && Transform(b, o.value) == Some(result)
    ensures o.None? <==> forall op | op in ops :: Transform(b, op) != Some(result)
  {
    if |ops| == 0 then None
    else if ops[0] in Operators(b) && Transform(b, ops[0]) == Some(result) then Some(ops[0])
    else
      var rest := FirstProducing(b, result, ops[1..]);
      assert forall op | op in ops :: op == ops[0] || op in ops[1..];
      rest
  }

  /** The order in which the model visits the legal moves (the Java HashSet order is unspecified). */
  const Order: seq<Op> := [Up, Down, Left, Right]

  lemma OrderCoversAll()
    ensures forall op: Op :: op in Order
  {
    forall op: Op ensures op in Order {
      match op
      case Up => assert Order[0] == op;
      case Down => assert Order[1] == op;
      case Left => assert Order[2] == op;
      case Right => assert Order[3] == op;
    }
  }

  /**
    `State.getOperator`: a move turning `b` into `result`, or None exactly when
    no single legal move does.
   */
  function GetOperator(b: Board, result: Board): (o: Option<Op>)
    requires HasBlank(b)
    ensures o.Some? ==> Transform(b, o.value) == Some(result)
    ensures o.None? <==> forall op: Op :: Transform(b, op) != Some(result)
  {
    OrderCoversAll();
    FirstProducing(b, result, Order)
  }

  /** getOperator recovers the move that produced a neighbour. */
  lemma GetOperatorRecoversMove(b: Board, o: Op)
    requires ValidBoard(b) && HasBlank(b) && o in Operators(b)
    ensures GetOperator(b, Transform(b, o).value) == Some(o)
  {
    var g := GetOperator(b, Transform(b, o).value);
    TransformInjective(b, g.value, o);
  }

  /** A move on a valid board always changes it: the traded cell held a tile and now holds the blank. */
  lemma TransformChangesBoard(b: Board)
    requires ValidBoard(b) && HasBlank(b)
    ensures forall o | o in Operators(b) :: Transform(b, o).value != b
  {
    forall o | o in Operators(b) ensures Transform(b, o).value != b {
      var t := Target(BlankIndex(b), o);
      assert b[t] != Blank;
    }
  }

  /** The neighbour produced by `o`, if `o` is legal. */
  function NeighborBy(b: Board, o: Op): (ns: seq<Board>)
    requires HasBlank(b)
    ensures |ns| == (if o in Operators(b) then 1 else 0)
    ensures forall n | n in ns :: o in Operators(b) && Transform(b, o) == Some(n)
  {
    if o in Operators(b) then [Transform(b, o).value] else []
  }

  /** The successors of `b`, one per legal move, visited in `Order`. */
  function Neighbors(b: Board): (ns: seq<Board>)
    requires HasBlank(b)
    ensures |ns| == |Operators(b)|
  {
    MoveSetSize(Operators(b));
    NeighborBy(b, Up) + NeighborBy(b, Down) + NeighborBy(b, Left) + NeighborBy(b, Right)
  }

  /** Each neighbour is the result of a legal move, and each legal move's result is a neighbour. */
  lemma NeighborsAreMoveResults(b: Board)
    requires HasBlank(b)
    ensures forall n | n in Neighbors(b) :: exists o | o in Operators(b) :: Transform(b, o) == Some(n)
    ensures forall o | o in Operators(b) :: Transform(b, o).value in Neighbors(b)
  {
    var up, down, left, right := NeighborBy(b, Up), NeighborBy(b, Down), NeighborBy(b, Left), NeighborBy(b, Right);
    var ns := Neighbors(b);
    assert ns == up + down + left + right;
    forall n | n in ns ensures exists o | o in Operators(b) :: Transform(b, o) == Some(n) {
      var o := if n in up then Up else if n in down then Down else if n in left then Left else Right;
      assert n in NeighborBy(b, o);
    }
    forall o | o in Operators(b) ensures Transform(b, o).value in ns {
      assert Transform(b, o).value in NeighborBy(b, o);
    }
  }

  /** Every neighbour of a valid board is a valid board different from it. */
  lemma NeighborsOfValid(b: Board)
    requires ValidBoard(b) && HasBlank(b)
    ensures forall n | n in Neighbors(b) :: n != b && ValidBoard(n)
  {
    TransformChangesBoard(b);
    NeighborsAreMoveResults(b);
    forall n | n in Neighbors(b) ensures n != b && ValidBoard(n) {
      var o :| o in Operators(b) && Transform(b, o) == Some(n);
      TransformKeepsSymbols(b, o);
    }
  }

  /**
    `State.getNeighbors`, with the static `State.database` registry made an
    explicit value: exactly the results of the legal moves, one per move,
    and the registry with each of them recorded.
   */
  function GetNeighbors(b: Board, database: set<Board>): (r: (seq<Board>, set<Board>))
    requires HasBlank(b)
    ensures forall n :: n in r.0 <==> exists o | o in Operators(b) :: Transform(b, o) == Some(n)
    ensures |r.0| == |Operators(b)|
    ensures ValidBoard(b) ==> forall n | n in r.0 :: ValidBoard(n) && n != b
    ensures r.1 == database + Successors(b)
    ensures r.1 == database + set o | o in Operators(b) :: Transform(b, o).value
  {
    var ns := Neighbors(b);
    NeighborsAreMoveResults(b);
    assert ValidBoard(b) ==> forall n | n in ns :: ValidBoard(n) && n != b by {
      if ValidBoard(b) {
        NeighborsOfValid(b);
      }
    }
    (ns, database + Successors(b))
  }

  /** The boards one legal move away, as a set: what `getNeighbors` records. */
  function Successors(b: Board): (s: set<Board>)
    requires HasBlank(b)
    ensures s == set o | o in Operators(b) :: Transform(b, o).value
  {
    NeighborsAreMoveResults(b);
    set n | n in Neighbors(b)
  }

  /** Apply the moves one after the other; None as soon as one is illegal. */
  function Replay(b: Board, ops: seq<Op>): (r: Option<Board>)
    requires HasBlank(b)
    ensures r.Some? ==> HasBlank(r.value) && multiset(r.value) == multiset(b)
    ensures r.Some? && ValidBoard(b) ==> ValidBoard(r.value)
    decreases |ops|
  {
    if |ops| == 0 then Some(b)
    else match Transform(b, ops[0])
      case None => None
      case Some(n) =>
        TransformKeepsSymbols(b, ops[0]);
        Replay(n, ops[1..])
  }
}

=== FILE: parity.dfy ===
/**
  The solvability test of `database/State.java` (`getInvCount`, `canReach`),
  which hw03_smalbadger_sfarris repeats as `Solvability.getInvCount` and
  `Solvability.isSolvable`.
 */
module Parity {
  import opened Wrappers
  import opened Board
  import opened Moves

  /** Number of non-blank cells. */
  function NonBlanks(s: seq<char>): nat {
    if |s| == 0 then 0 else (if s[0] != Blank then 1 else 0) + NonBlanks(s[1..])
  }

  /** Non-blank cells of `s` that `c` sorts above. */
  function CountBelow(c: char, s: seq<char>): (n: nat)
    ensures n <= NonBlanks(s)
  {
    if |s| == 0 then 0 else (if s[0] != Blank && c > s[0] then 1 else 0) + CountBelow(c, s[1..])
  }

  /** Pairs i < j of non-blank cells with s[i] > s[j]: the reference definition of an inversion count. */
  function Inversions(s: seq<char>): nat {
    if |s| == 0 then 0
    else (if s[0] != Blank then CountBelow(s[0], s[1..]) else 0) + Inversions(s[1..])
  }

  /**
    `getInvCount`: flatten the grid row by row, then compare every cell with
    every later one, ignoring blanks. For a valid board the count is at most
    28, the number of pairs of the eight tiles.
   */
  method GetInvCount(b: Board) returns (invCount: nat)
    requires |b| == 9
    ensures invCount == Inversions(b)
    ensures ValidBoard(b) ==> invCount <= 28
  {
    var board1D: seq<char> := [];
    for i := 0 to 3
      invariant board1D == b[..3 * i]
    {
      for j := 0 to 3
        invariant board1D == b[..3 * i + j]
      {
        board1D := board1D + [GetAt(b, i, j)];
      }
    }
    assert board1D == b;
    invCount := 0;
    for i := 0 to 8
      invariant invCount + Inversions(board1D[i..]) == Inversions(board1D)
    {
      assert board1D[i..][1..] == board1D[i + 1..];
      for j := i + 1 to 9
        invariant invCount + (if board1D[i] != Blank then CountBelow(board1D[i], board1D[j..]) else 0)
                  + Inversions(board1D[i + 1..]) == Inversions(board1D)
      {
        assert board1D[j..][1..] == board1D[j + 1..];
        if board1D[i] != Blank && board1D[j] != Blank && board1D[i] > board1D[j] {
          invCount := invCount + 1;
        }
      }
    }
    assert board1D[8..][1..] == [];
    if ValidBoard(b) {
      InversionsBound(b);
      ValidBoardNonBlanks(b);
    }
  }

  /** k non-blank cells form at most k(k-1)/2 pairs. */
  lemma {:induction false} InversionsBound(s: seq<char>)
    ensures 2 * Inversions(s) <= NonBlanks(s) * (NonBlanks(s) - 1)
  {
    if |s| > 0 {
      InversionsBound(s[1..]);
      var m: int := NonBlanks(s[1..]);
      if s[0] != Blank {
        assert (m + 1) * m == m * (m - 1) + 2 * m;
      }
    }
  }

  lemma {:induction false} NoBlankNonBlanks(s: seq<char>)
    requires Blank !in s
    ensures NonBlanks(s) == |s|
  {
    if |s| > 0 {
      NoBlankNonBlanks(s[1..]);
    }
  }

  /** A valid board has exactly eight tiles besides its one blank. */
  lemma {:induction false} ValidBoardNonBlanks(b: Board)
    requires ValidBoard(b)
    ensures NonBlanks(b) == 8
  {
    ValidBoardHasEverySymbol(b);
    OneBlankNonBlanks(b);
  }

  lemma {:induction false} OneBlankNonBlanks(s: seq<char>)
    requires Distinct(s) && Blank in s
    ensures NonBlanks(s) == |s| - 1
  {
    var t := s[1..];
    assert Distinct(t) by {
      forall i, j | 0 <= i < j < |t| ensures t[i] != t[j] {
        assert t[i] == s[i + 1] && t[j] == s[j + 1];
      }
    }
    if s[0] == Blank {
      assert forall i | 0 <= i < |t| :: t[i] == s[i + 1] != s[0];
      NoBlankNonBlanks(t);
    } else {
      OneBlankNonBlanks(t);
    }
  }

  /**
    `canReach` / `isSolvable`: the two boards' inversion counts have the same
    parity, equivalently their sum is even.
   */
  function CanReach(a: Board, b: Board): (r: bool)
    requires |a| == 9 && |b| == 9
    ensures r <==> (Inversions(a) + Inversions(b)) % 2 == 0
    ensures a == b ==> r
  {
    Inversions(a) % 2 == Inversions(b) % 2
  }

  /** Reachability by parity is an equivalence relation. */
  lemma CanReachIsEquivalence(a: Board, b: Board, c: Board)
    requires |a| == 9 && |b| == 9 && |c| == 9
    ensures CanReach(a, a)
    ensures CanReach(a, b) <==> CanReach(b, a)
    ensures CanReach(a, b) && CanReach(b, c) ==> CanReach(a, c)
  {
  }

  /** Pairs between the non-blank cells of `a` and those of a later `c`, counted where the `a` symbol is greater. */
  function Cross(a: seq<char>, c: seq<char>): nat {
    if |a| == 0 then 0 else (if a[0] != Blank then CountBelow(a[0], c) else 0) + Cross(a[1..], c)
  }

  lemma {:induction false} CountBelowConcat(x: char, s: seq<char>, t: seq<char>)
    ensures CountBelow(x, s + t) == CountBelow(x, s) + CountBelow(x, t)
  {
    if |s| > 0 {
      assert (s + t)[1..] == s[1..] + t;
      CountBelowConcat(x, s[1..], t);
    } else {
      assert s + t == t;
    }
  }

  lemma {:induction false} CrossConcatRight(a: seq<char>, c: seq<char>, d: seq<char>)
    ensures Cross(a, c + d) == Cross(a, c) + Cross(a, d)
  {
    if |a| > 0 {
      CountBelowConcat(a[0], c, d);
      CrossConcatRight(a[1..], c, d);
    }
  }

  /** Inversions of a concatenation: those inside each part plus those across. */
  lemma {:induction false} InversionsConcat(a: seq<char>, c: seq<char>)
    ensures Inversions(a + c) == Inversions(a) + Inversions(c) + Cross(a, c)
  {
    if |a| > 0 {
      assert (a + c)[1..] == a[1..] + c;
      CountBelowConcat(a[0], a[1..], c);
      InversionsConcat(a[1..], c);
    } else {
      assert a + c == c;
    }
  }

  /** Cross counts against blocks that every symbol sees alike are equal. */
  lemma {:induction false} CrossCongruent(a: seq<char>, m: seq<char>, m2: seq<char>)
    requires forall x: char :: CountBelow(x, m) == CountBelow(x, m2)
    ensures Cross(a, m) == Cross(a, m2)
  {
    if |a| > 0 {
      CrossCongruent(a[1..], m, m2);
    }
  }

  /** Inversions of three consecutive parts, each counted once. */
  lemma SplitThree(p: seq<char>, m: seq<char>, q: seq<char>)
    ensures Inversions(p + m + q)
         == Inversions(p) + Inversions(m) + Inversions(q) + Cross(p, m) + Cross(p, q) + Cross(m, q)
  {
    assert p + m + q == p + (m + q);
    InversionsConcat(p, m + q);
    InversionsConcat(m, q);
    CrossConcatRight(p, m, q);
  }

  /**
    Replacing a middle block by one that every outside symbol sees alike, with
    the same cross count against the suffix and the same inner parity, keeps
    the parity of the whole.
   */
  lemma BlockParity(p: seq<char>, m: seq<char>, m2: seq<char>, q: seq<char>)
    requires forall x: char :: CountBelow(x, m) == CountBelow(x, m2)
    requires Cross(m, q) == Cross(m2, q)
    requires Inversions(m) % 2 == Inversions(m2) % 2
    ensures Inversions(p + m + q) % 2 == Inversions(p + m2 + q) % 2
  {
    CrossCongruent(p, m, m2);
    BlockDifference(p, m, m2, q);
    EqualParityShift(Inversions(p + m + q), Inversions(p + m2 + q), Inversions(m), Inversions(m2));
  }

  /** Only the inner inversions of the block differ. */
  lemma BlockDifference(p: seq<char>, m: seq<char>, m2: seq<char>, q: seq<char>)
    requires Cross(p, m) == Cross(p, m2) && Cross(m, q) == Cross(m2, q)
    ensures Inversions(p + m + q) + Inversions(m2) == Inversions(p + m2 + q) + Inversions(m)
  {
    SplitThree(p, m, q);
    SplitThree(p, m2, q);
  }

  lemma EqualParityShift(x: nat, y: nat, a: nat, b: nat)
    requires x + b == y + a && a % 2 == b % 2
    ensures x % 2 == y % 2
  {
  }

  /** 1 when `y` is a tile that `x` sorts above. */
  function Below(x: char, y: char): nat {
    if y != Blank && x > y then 1 else 0
  }

  lemma CountBelowCons(x: char, y: char, s: seq<char>)
    ensures CountBelow(x, [y] + s) == Below(x, y) + CountBelow(x, s)
  {
    assert ([y] + s)[1..] == s;
  }

  lemma InversionsCons(y: char, s: seq<char>)
    ensures Inversions([y] + s) == (if y != Blank then CountBelow(y, s) else 0) + Inversions(s)
  {
    assert ([y] + s)[1..] == s;
  }

  lemma CrossCons(y: char, s: seq<char>, q: seq<char>)
    ensures Cross([y] + s, q) == (if y != Blank then CountBelow(y, q) else 0) + Cross(s, q)
  {
    assert ([y] + s)[1..] == s;
  }

  /** The counts of a two-cell block, spelled out. */
  lemma Block2(a: char, b: char, q: seq<char>)
    ensures forall x: char :: CountBelow(x, [a, b]) == Below(x, a) + Below(x, b)
    ensures Inversions([a, b]) == (if a != Blank then Below(a, b) else 0)
    ensures Cross([a, b], q) == (if a != Blank then CountBelow(a, q) else 0) + (if b != Blank then CountBelow(b, q) else 0)
  {
    assert [a, b] == [a] + [b] && [b] == [b] + [];
    forall x: char ensures CountBelow(x, [a, b]) == Below(x, a) + Below(x, b) {
      CountBelowCons(x, a, [b]);
      CountBelowCons(x, b, []);
    }
    InversionsCons(a, [b]);
    InversionsCons(b, []);
    CountBelowCons(a, b, []);
    CrossCons(a, [b], q);
    CrossCons(b, [], q);
  }

  /** The counts of a block of four cells, spelled out. */
  lemma Block4(a: char, b: char, c: char, d: char, q: seq<char>)
    ensures forall x: char :: CountBelow(x, [a, b, c, d]) == Below(x, a) + Below(x, b) + Below(x, c) + Below(x, d)
    ensures Inversions([a, b, c, d])
         == (if a != Blank then Below(a, b) + Below(a, c) + Below(a, d) else 0)
          + (if b != Blank then Below(b, c) + Below(b, d) else 0)
          + (if c != Blank then Below(c, d) else 0)
    ensures Cross([a, b, c, d], q)
         == (if a != Blank then CountBelow(a, q) else 0) + (if b != Blank then CountBelow(b, q) else 0)
          + (if c != Blank then CountBelow(c, q) else 0) + (if d != Blank then CountBelow(d, q) else 0)
  {
    assert [a, b, c, d] == [a] + [b, c, d];
    assert [b, c, d] == [b] + [c, d];
    Block2(c, d, q);
    forall x: char ensures CountBelow(x, [a, b, c, d]) == Below(x, a) + Below(x, b) + Below(x, c) + Below(x, d) {
      CountBelowCons(x, a, [b, c, d]);
      CountBelowCons(x, b, [c, d]);
    }
    InversionsCons(a, [b, c, d]);
    InversionsCons(b, [c, d]);
    CrossCons(a, [b, c, d], q);
    CrossCons(b, [c, d], q);
  }

  /** A horizontal move: exchanging the blank with the adjacent cell keeps the inversion count. */
  lemma PairParity(p: seq<char>, q: seq<char>, x: char, y: char)
    requires x == Blank || y == Blank
    ensures Inversions(p + [x, y] + q) % 2 == Inversions(p + [y, x] + q) % 2
  {
    Block2(x, y, q);
    Block2(y, x, q);
    BlockParity(p, [x, y], [y, x], q);
  }

  /**
    A vertical move: the tile `z` jumps over the two tiles `u`, `v` between it
    and the blank, which changes the inversion count by an even number.
   */
  lemma RotateParity(p: seq<char>, q: seq<char>, z: char, u: char, v: char)
    requires z != Blank && u != Blank && v != Blank && z != u && z != v
    ensures Inversions(p + [z, u, v, Blank] + q) % 2 == Inversions(p + [Blank, u, v, z] + q) % 2
  {
    Block4(z, u, v, Blank, q);
    Block4(Blank, u, v, z, q);
    assert Below(z, u) + Below(u, z) == 1;
    assert Below(z, v) + Below(v, z) == 1;
    BlockParity(p, [z, u, v, Blank], [Blank, u, v, z], q);
  }

  /** Exchanging the blank with a cell one or three places away keeps the inversion parity. */
  lemma SwapParity(b: Board, r: Board, i: int, j: int)
    requires ValidBoard(b) && 0 <= i < j < 9 && (j - i == 1 || j - i == 3)
    requires b[i] == Blank || b[j] == Blank
    requires Swapped(b, r, i, j)
    ensures Inversions(b) % 2 == Inversions(r) % 2
  {
    var p, q := b[..i], b[j + 1..];
    assert r[..i] == p && r[j + 1..] == q;
    assert b == p + b[i..j + 1] + q && r == p + r[i..j + 1] + q;
    if j - i == 1 {
      assert b[i..j + 1] == [b[i], b[j]] && r[i..j + 1] == [b[j], b[i]];
      PairParity(p, q, b[i], b[j]);
    } else {
      var u, v := b[i + 1], b[i + 2];
      assert b[i..j + 1] == [b[i], u, v, b[j]] && r[i..j + 1] == [b[j], u, v, b[i]];
      if b[j] == Blank {
        RotateParity(p, q, b[i], u, v);
      } else {
        RotateParity(p, q, b[j], u, v);
      }
    }
  }

  /** Every legal move keeps the inversion parity, so `canReach` holds between a board and each neighbour. */
  lemma MovePreservesParity(b: Board, o: Op)
    requires ValidBoard(b) && HasBlank(b) && o in Operators(b)
    ensures CanReach(b, Transform(b, o).value)
  {
    var k := BlankIndex(b);
    var t := Target(k, o);
    var r := Transform(b, o).value;
    if k < t {
      SwapParity(b, r, k, t);
    } else {
      assert Swapped(b, r, t, k);
      SwapParity(b, r, t, k);
    }
  }

  /** Parity is kept along any sequence of moves. */
  lemma {:induction false} ReplayPreservesParity(b: Board, ops: seq<Op>)
    requires ValidBoard(b) && HasBlank(b) && Replay(b, ops).Some?
    ensures CanReach(b, Replay(b, ops).value)
    decreases |ops|
  {
    if |ops| > 0 {
      var n := Transform(b, ops[0]).value;
      MovePreservesParity(b, ops[0]);
      TransformKeepsSymbols(b, ops[0]);
      ReplayPreservesParity(n, ops[1..]);
    }
  }
}

=== FILE: path.dfy ===
/**
  `database/Path.java` (and the identical `Path` classes of the two
  single-file copies): a non-empty sequence of states visited in order.

  Java paths are mutable lists that the search copies before extending;
  here a path is a value, so `copy` is the identity and `add` returns the
  extended path together with the boolean the Java method returns.
 */
module Paths {
  import opened Wrappers
  import opened Board
  import opened Moves
  import opened Parity
  import opened Heuristics

  datatype Path = Path(states: seq<Board>)

  /** What the methods below need: at least one state, and a blank in each so moves can be recovered. */
  predicate WellFormed(p: Path) {
    && |p.states| > 0
    && forall i | 0 <= i < |p.states| :: HasBlank(p.states[i])
  }

  /** `b` is one legal move away from `a`. */
  predicate Moved(a: Board, b: Board) {
    HasBlank(a) && exists o: Op :: Transform(a, o) == Some(b)
  }

  /** Consecutive states are one legal move apart. */
  predicate Adjacent(states: seq<Board>) {
    forall i | 0 <= i < |states| - 1 :: Moved(states[i], states[i + 1])
  }

  /** `Path(State)`: the zero-length path holding one state. */
  function Single(s: Board): (p: Path)
    ensures |p.states| == 1 && Length(p) == 0 && Terminal(p) == s
    ensures Distinct(p.states) && Adjacent(p.states)
  {
    Path([s])
  }

  /** `length`: the number of transitions, which is the index of the terminal state. */
  function Length(p: Path): (n: int)
    ensures |p.states| > 0 ==> n >= 0 && GetStateAt(p, n) == Some(Terminal(p)) && GetStateAt(p, n + 1).None?
  {
    |p.states| - 1
  }

  /** `terminalState`: the state `getStateAt` returns at the last index. */
  function Terminal(p: Path): (t: Board)
    requires |p.states| > 0
    ensures t in p.states && GetStateAt(p, |p.states| - 1) == Some(t)
  {
    p.states[|p.states| - 1]
  }

  /** `getStateAt`: the state at `idx`, or None (Java `null`) outside the path. */
  function GetStateAt(p: Path, idx: int): (r: Option<Board>)
    ensures r.None? <==> idx < 0 || idx >= |p.states|
    ensures r.Some? ==> r.value == p.states[idx] && r.value in p.states
  {
    if idx >= |p.states| || idx < 0 then None else Some(p.states[idx])
  }

  /** Index 0 holds the first state and index `length()` the terminal one. */
  lemma GetStateAtEnds(p: Path)
    requires |p.states| > 0
    ensures GetStateAt(p, 0) == Some(p.states[0]) && GetStateAt(p, Length(p)) == Some(Terminal(p))
    ensures GetStateAt(p, Length(p) + 1).None? && GetStateAt(p, -1).None?
  {
  }

  /** The linear scan of `contains`, from position `i` on. */
  function ContainsFrom(states: seq<Board>, s: Board, i: nat): (b: bool)
    requires i <= |states|
    ensures b <==> exists j | i <= j < |states| :: states[j] == s
    decreases |states| - i
  {
    if i == |states| then false
    else if states[i] == s then true
    else ContainsFrom(states, s, i + 1)
  }

  /** `contains`: some stored state equals `s` (cell by cell, which is value equality). */
  function Contains(p: Path, s: Board): (b: bool)
    ensures b <==> s in p.states
  {
    ContainsFrom(p.states, s, 0)
  }

  /**
    `add`: refuses a state already on the path (returning false and the path
    unchanged); otherwise appends it and returns true.
   */
  function Add(p: Path, s: Board): (r: (Path, bool))
    ensures s in p.states ==> r == (p, false)
    ensures s !in p.states ==>
              && r.1
              && r.0.states == p.states + [s]
              && Length(r.0) == Length(p) + 1
              && Terminal(r.0) == s
  {
    if Contains(p, s) then (p, false) else (Path(p.states + [s]), true)
  }

  /** `copy`: a path with the same states in the same order. */
  function Copy(p: Path): (q: Path)
    ensures q.states == p.states && Length(q) == Length(p)
  {
    Path(p.states)
  }

  /** Adding to a copy leaves the original as a prefix of the copy; the original itself is a value and cannot change. */
  lemma CopyThenAdd(p: Path, s: Board)
    ensures var q := Add(Copy(p), s).0;
            |q.states| >= |p.states| && q.states[..|p.states|] == p.states
  {
  }

  /** `add` keeps a path free of repeated states. */
  lemma AddKeepsDistinct(p: Path, s: Board)
    requires Distinct(p.states)
    ensures Distinct(Add(p, s).0.states)
  {
  }

  /** A sequence of `add` calls, left to right. */
  function AddAll(p: Path, ss: seq<Board>): (q: Path)
    ensures |q.states| >= |p.states| && q.states[..|p.states|] == p.states
    decreases |ss|
  {
    if |ss| == 0 then p else AddAll(Add(p, ss[0]).0, ss[1..])
  }

  /** A path built from the one-state constructor by `add` calls never repeats a state. */
  lemma {:induction false} BuiltPathsAreDistinct(p: Path, ss: seq<Board>)
    requires Distinct(p.states)
    ensures Distinct(AddAll(p, ss).states)
    decreases |ss|
  {
    if |ss| > 0 {
      AddKeepsDistinct(p, ss[0]);
      BuiltPathsAreDistinct(Add(p, ss[0]).0, ss[1..]);
    }
  }

  lemma SingleThenAdds(s: Board, ss: seq<Board>)
    ensures Distinct(AddAll(Single(s), ss).states)
    ensures AddAll(Single(s), ss).states[0] == s
  {
    BuiltPathsAreDistinct(Single(s), ss);
  }

  /** The operators between consecutive states of `states`. */
  function OperatorsOf(states: seq<Board>): (ops: seq<Option<Op>>)
    requires |states| > 0 && forall i | 0 <= i < |states| :: HasBlank(states[i])
    ensures |ops| == |states| - 1
    decreases |states|
  {
    if |states| == 1 then []
    else
      assert forall i | 0 <= i < |states| - 1 :: states[1..][i] == states[i + 1];
      [GetOperator(states[0], states[1])] + OperatorsOf(states[1..])
  }

  /**
    `getOperators`: one entry per transition, `getOperator` between
    consecutive states, None (Java `null`) included.
   */
  function PathOperators(p: Path): (ops: seq<Option<Op>>)
    requires WellFormed(p)
    ensures |ops| == Length(p)
  {
    OperatorsOf(p.states)
  }

  /** Entry `i` is the move from state `i` to state `i + 1`. */
  lemma {:induction false} PathOperatorsAt(states: seq<Board>, i: int)
    requires |states| > 0 && forall k | 0 <= k < |states| :: HasBlank(states[k])
    requires 0 <= i < |states| - 1
    ensures OperatorsOf(states)[i] == GetOperator(states[i], states[i + 1])
    decreases |states|
  {
    if i > 0 {
      assert forall k | 0 <= k < |states| - 1 :: states[1..][k] == states[k + 1];
      PathOperatorsAt(states[1..], i - 1);
    }
  }

  /** Between states one move apart, `getOperator` finds the move. */
  lemma MovedHasOperator(a: Board, b: Board)
    requires Moved(a, b)
    ensures GetOperator(a, b).Some? && Transform(a, GetOperator(a, b).value) == Some(b)
  {
  }

  /** The operators of a path whose entries are all present. */
  function Unwrap(ops: seq<Option<Op>>): (r: seq<Op>)
    requires forall i | 0 <= i < |ops| :: ops[i].Some?
    ensures |r| == |ops| && forall i | 0 <= i < |ops| :: ops[i] == Some(r[i])
  {
    seq(|ops|, i requires 0 <= i < |ops| => ops[i].value)
  }

  lemma OperatorsOfCons(states: seq<Board>)
    requires |states| > 1 && forall i | 0 <= i < |states| :: HasBlank(states[i])
    ensures forall i | 0 <= i < |states| - 1 :: HasBlank(states[1..][i])
    ensures OperatorsOf(states) == [GetOperator(states[0], states[1])] + OperatorsOf(states[1..])
  {
    assert forall i | 0 <= i < |states| - 1 :: states[1..][i] == states[i + 1];
  }

  lemma UnwrapCons(x: Option<Op>, ops: seq<Option<Op>>)
    requires x.Some? && forall i | 0 <= i < |ops| :: ops[i].Some?
    ensures forall i | 0 <= i < |[x] + ops| :: ([x] + ops)[i].Some?
    ensures Unwrap([x] + ops) == [x.value] + Unwrap(ops)
  {
  }

  lemma ReplayCons(b: Board, o: Op, rest: seq<Op>, n: Board)
    requires HasBlank(b) && Transform(b, o) == Some(n)
    ensures HasBlank(n) && Replay(b, [o] + rest) == Replay(n, rest)
  {
    TransformKeepsSymbols(b, o);
    assert ([o] + rest)[1..] == rest;
  }

  /** The moves recovered from consecutive states, replayed from the first one, reach the last. */
  lemma {:induction false} ReplayStates(states: seq<Board>)
    requires |states| > 0 && Adjacent(states)
    requires forall i | 0 <= i < |states| :: HasBlank(states[i])
    ensures var ops := OperatorsOf(states);
            && (forall i | 0 <= i < |ops| :: ops[i].Some?)
            && Replay(states[0], Unwrap(ops)) == Some(states[|states| - 1])
    decreases |states|
  {
    if |states| > 1 {
      var tail := states[1..];
      OperatorsOfCons(states);
      assert Adjacent(tail) by {
        forall i | 0 <= i < |tail| - 1 ensures Moved(tail[i], tail[i + 1]) {
          assert Moved(states[i + 1], states[i + 2]);
        }
      }
      ReplayStates(tail);
      assert Moved(states[0], states[1]);
      MovedHasOperator(states[0], states[1]);
      var first := GetOperator(states[0], states[1]);
      UnwrapCons(first, OperatorsOf(tail));
      ReplayCons(states[0], first.value, Unwrap(OperatorsOf(tail)), states[1]);
    }
  }

  /** `getOperators` on an adjacent path gives moves that lead from its first state to its terminal state. */
  lemma ReplayReachesTerminal(p: Path)
    requires WellFormed(p) && Adjacent(p.states)
    ensures var ops := PathOperators(p);
            && (forall i | 0 <= i < |ops| :: ops[i].Some?)
            && Replay(p.states[0], Unwrap(ops)) == Some(Terminal(p))
  {
    ReplayStates(p.states);
  }

  /** The heuristic can be evaluated at the path's terminal state. */
  predicate Scorable(p: Path, h: Heuristic) {
    WellFormed(p) && CanEval(h, Terminal(p))
  }

  /** `estimate`: moves so far plus the heuristic's estimate from the terminal state. */
  function Estimate(p: Path, h: Heuristic): (v: real)
    requires Scorable(p, h)
    ensures v == Length(p) as real + Eval(h, Terminal(p))
    ensures v >= Length(p) as real
    ensures h.kind == Zero ==> v == Length(p) as real
  {
    |PathOperators(p)| as real + Eval(h, Terminal(p))
  }

  /**
    With an admissible heuristic the estimate never exceeds the length of
    any completion of the path into the goal: it is a lower bound.
   */
  lemma EstimateIsLowerBound(p: Path, h: Heuristic, rest: seq<Op>)
    requires WellFormed(p) && ValidBoard(Terminal(p)) && ValidBoard(h.goal) && Admissible(h.kind)
    requires Replay(Terminal(p), rest) == Some(h.goal)
    ensures Scorable(p, h) && Estimate(p, h) <= (Length(p) + |rest|) as real
  {
    EvalAdmissible(h, Terminal(p), rest);
  }

  /** `compareTo`: 1, 0 or -1 as the first estimate is greater, equal or smaller. */
  function CompareTo(p: Path, q: Path, h: Heuristic): (c: int)
    requires Scorable(p, h) && Scorable(q, h)
    ensures c == 1 <==> Estimate(p, h) > Estimate(q, h)
    ensures c == 0 <==> Estimate(p, h) == Estimate(q, h)
    ensures c == -1 <==> Estimate(p, h) < Estimate(q, h)
  {
    var est1, est2 := Estimate(p, h), Estimate(q, h);
    if est1 > est2 then 1 else if est1 == est2 then 0 else -1
  }

  /** The comparison is antisymmetric and transitive, so it is a valid sort order. */
  lemma CompareToIsOrder(p: Path, q: Path, r: Path, h: Heuristic)
    requires Scorable(p, h) && Scorable(q, h) && Scorable(r, h)
    ensures CompareTo(p, q, h) == -CompareTo(q, p, h)
    ensures CompareTo(p, q, h) <= 0 && CompareTo(q, r, h) <= 0 ==> CompareTo(p, r, h) <= 0
  {
  }

  /** Java's `(int)` cast of a float: truncation toward zero. */
  function Truncate(x: real): (n: int)
    ensures x >= 0.0 ==> 0 <= n && n as real <= x < n as real + 1.0
    ensures x < 0.0 ==> n <= 0 && n as real - 1.0 < x <= n as real
  {
    if x >= 0.0 then x.Floor else -((-x).Floor)
  }

  /** `compareTo` of hw03_smalbadger: the estimate difference cast to `int`. */
  function CompareTruncated(p: Path, q: Path, h: Heuristic): (c: int)
    requires Scorable(p, h) && Scorable(q, h)
    ensures c > 0 ==> Estimate(p, h) > Estimate(q, h)
    ensures c < 0 ==> Estimate(p, h) < Estimate(q, h)
  {
    Truncate(Estimate(p, h) - Estimate(q, h))
  }

  /** Every heuristic except the mean composite takes whole-number values. */
  lemma EvalIsWhole(h: Heuristic, s: Board)
    requires CanEval(h, s) && h.kind != MeanOf
    ensures Eval(h, s) == Eval(h, s).Floor as real
  {
  }

  /**
    For whole-number estimates the truncated difference has the sign of the
    three-way comparison, so both `compareTo`s order the queue alike.
   */
  lemma CompareTruncatedAgrees(p: Path, q: Path, h: Heuristic)
    requires Scorable(p, h) && Scorable(q, h) && h.kind != MeanOf
    ensures CompareTruncated(p, q, h) > 0 <==> CompareTo(p, q, h) == 1
    ensures CompareTruncated(p, q, h) == 0 <==> CompareTo(p, q, h) == 0
    ensures CompareTruncated(p, q, h) < 0 <==> CompareTo(p, q, h) == -1
  {
    var e1, e2 := Eval(h, Terminal(p)), Eval(h, Terminal(q));
    EvalIsWhole(h, Terminal(p));
    EvalIsWhole(h, Terminal(q));
    var d := Length(p) - Length(q) + e1.Floor - e2.Floor;
    assert Estimate(p, h) - Estimate(q, h) == d as real;
    TruncateWhole(d);
  }

  lemma TruncateWhole(n: int)
    ensures Truncate(n as real) == n
  {
  }
}

=== FILE: search.dfy ===
/**
  The A* frontier loop of `control_strategies/AStar.java` (`exec`), which
  both single-file copies repeat as `aStar`.

  Java runs the loop until the frontier is empty or its head ends at the
  goal; the model runs it at most `fuel` times and reports `OutOfFuel`
  when that bound, and not the loop condition, stopped it.
 */
module Search {
  import opened Wrappers
  import opened Board
  import opened Moves
  import opened Parity
  import opened Heuristics
  import opened Paths

  /** The estimate as a total sort key: equal to `Estimate` wherever that is defined. */
  function Score(h: Heuristic, p: Path): real {
    if Scorable(p, h) then Estimate(p, h) else 0.0
  }

  /** The key the queue is pruned and sorted by. */
  function KeyOf(h: Heuristic): Path -> real {
    p => Score(h, p)
  }

  /** Ascending by key, least cost paths in front. */
  predicate Sorted(ps: seq<Path>, key: Path -> real) {
    forall i, j | 0 <= i < j < |ps| :: key(ps[i]) <= key(ps[j])
  }

  /** The paths of a queue, as a set. */
  function Members(ps: seq<Path>): set<Path> {
    set p | p in ps
  }

  predicate NonEmptyPaths(ps: seq<Path>) {
    forall i | 0 <= i < |ps| :: |ps[i].states| > 0
  }

  /** The terminal states of the paths, in order. */
  function Terminals(ps: seq<Path>): (ts: seq<Board>)
    requires NonEmptyPaths(ps)
    ensures |ts| == |ps| && forall i | 0 <= i < |ps| :: ts[i] == Terminal(ps[i])
  {
    seq(|ps|, i requires 0 <= i < |ps| => Terminal(ps[i]))
  }

  /** No two paths end at the same state. */
  predicate DistinctTerminals(ps: seq<Path>) {
    && NonEmptyPaths(ps)
    && forall i, j | 0 <= i < j < |ps| :: Terminal(ps[i]) != Terminal(ps[j])
  }

  // ---------------------------------------------------------------- step 2a/2b: extension

  /**
    For each expansion not already on `best`, in order: a copy of `best`
    with the expansion added. Expansions already on `best` would close a loop
    and are rejected.
   */
  function Extend(best: Path, expansions: seq<Board>): (r: seq<Path>)
    ensures |r| <= |expansions|
    ensures forall q | q in r ::
              && |q.states| == |best.states| + 1
              && q.states == best.states + [q.states[|best.states|]]
              && q.states[|best.states|] in expansions && q.states[|best.states|] !in best.states
    ensures forall s | s in expansions && s !in best.states :: Path(best.states + [s]) in r
  {
    if |expansions| == 0 then []
    else
      var s := expansions[0];
      var rest := Extend(best, expansions[1..]);
      assert forall t | t in expansions[1..] :: t in expansions;
      if !Contains(best, s) then
        var extended := Add(Copy(best), s).0;
        [extended] + rest
      else
        rest
  }

  // ---------------------------------------------------------------- step 2c: pruning

  /**
    `q` was kept for its terminal: it is the first path in `paths` with the
    least estimate among those ending where it ends.
   */
  predicate FirstMinimal(paths: seq<Path>, q: Path, key: Path -> real)
    requires NonEmptyPaths(paths) && |q.states| > 0
  {
    exists i | 0 <= i < |paths| && paths[i] == q ::
      forall j | 0 <= j < |paths| && Terminal(paths[j]) == Terminal(q) ::
        key(q) <= key(paths[j]) && (j < i ==> key(q) < key(paths[j]))
  }

  /**
    After the first `i` paths: the kept paths end at distinct states, cover
    every terminal seen so far, and each is the first least-key path among
    those seen ending where it ends; `origin[k]` is where `kept[k]` came from.
   */
  ghost predicate PruneInv(paths: seq<Path>, i: nat, kept: seq<Path>, origin: seq<int>, key: Path -> real)
    requires NonEmptyPaths(paths) && i <= |paths|
  {
    && |origin| == |kept|
    && DistinctTerminals(kept)
    && (forall k | 0 <= k < |kept| :: 0 <= origin[k] < i && paths[origin[k]] == kept[k])
    && (forall j | 0 <= j < i :: Terminal(paths[j]) in Terminals(kept))
    && (forall k, j | 0 <= k < |kept| && 0 <= j < i && Terminal(paths[j]) == Terminal(kept[k]) ::
          key(kept[k]) <= key(paths[j]) && (j < origin[k] ==> key(kept[k]) < key(paths[j])))
  }

  /** A path with an unseen terminal is appended. */
  lemma PruneAppend(paths: seq<Path>, i: nat, kept: seq<Path>, origin: seq<int>, key: Path -> real)
    requires NonEmptyPaths(paths) && i < |paths| && PruneInv(paths, i, kept, origin, key)
    requires Terminal(paths[i]) !in Terminals(kept)
    ensures PruneInv(paths, i + 1, kept + [paths[i]], origin + [i], key)
  {
    var kept' := kept + [paths[i]];
    assert Terminals(kept') == Terminals(kept) + [Terminal(paths[i])];
  }

  /** A strictly cheaper path replaces the kept one with the same terminal. */
  lemma PruneReplace(paths: seq<Path>, i: nat, kept: seq<Path>, origin: seq<int>, key: Path -> real, k: nat)
    requires NonEmptyPaths(paths) && i < |paths| && PruneInv(paths, i, kept, origin, key)
    requires k < |kept| && Terminal(kept[k]) == Terminal(paths[i]) && key(paths[i]) < key(kept[k])
    ensures PruneInv(paths, i + 1, kept[k := paths[i]], origin[k := i], key)
  {
    assert Terminals(kept[k := paths[i]]) == Terminals(kept);
  }

  /** A path no cheaper than the kept one is dropped. */
  lemma PruneSkip(paths: seq<Path>, i: nat, kept: seq<Path>, origin: seq<int>, key: Path -> real, k: nat)
    requires NonEmptyPaths(paths) && i < |paths| && PruneInv(paths, i, kept, origin, key)
    requires k < |kept| && Terminal(kept[k]) == Terminal(paths[i]) && key(kept[k]) <= key(paths[i])
    ensures PruneInv(paths, i + 1, kept, origin, key)
  {
    assert Terminals(kept)[k] == Terminal(paths[i]);
  }

  /**
    Step 2c: walk the paths in order, keeping per terminal state the path
    with the smallest estimate; a later path replaces the kept one only when
    strictly better. The kept paths come out in the order their terminals
    first appeared (Java's `HashMap` leaves this order unspecified).
   */
  method Prune(paths: seq<Path>, key: Path -> real) returns (kept: seq<Path>)
    requires NonEmptyPaths(paths)
    ensures DistinctTerminals(kept)
    ensures Members(kept) <= Members(paths)
    ensures forall p | p in paths :: exists q | q in kept :: Terminal(q) == Terminal(p) && key(q) <= key(p)
    ensures forall k | 0 <= k < |kept| :: FirstMinimal(paths, kept[k], key)
  {
    kept := [];
    ghost var origin: seq<int> := [];
    for i := 0 to |paths|
      invariant PruneInv(paths, i, kept, origin, key)
    {
      var p := paths[i];
      var terminal := Terminal(p);
      if terminal !in Terminals(kept) {
        PruneAppend(paths, i, kept, origin, key);
        kept := kept + [p];
        origin := origin + [i];
      } else {
        var k :| 0 <= k < |kept| && Terminals(kept)[k] == terminal;
        if key(p) < key(kept[k]) {
          PruneReplace(paths, i, kept, origin, key, k);
          kept := kept[k := p];
          origin := origin[k := i];
        } else {
          PruneSkip(paths, i, kept, origin, key, k);
        }
      }
    }
    PruneResult(paths, kept, origin, key);
  }

  /** What the invariant gives once every path has been seen. */
  lemma PruneResult(paths: seq<Path>, kept: seq<Path>, origin: seq<int>, key: Path -> real)
    requires NonEmptyPaths(paths) && PruneInv(paths, |paths|, kept, origin, key)
    ensures Members(kept) <= Members(paths)
    ensures forall p | p in paths :: exists q | q in kept :: Terminal(q) == Terminal(p) && key(q) <= key(p)
    ensures forall k | 0 <= k < |kept| :: FirstMinimal(paths, kept[k], key)
  {
    forall q | q in kept ensures q in paths {
      var k :| 0 <= k < |kept| && kept[k] == q;
      assert paths[origin[k]] == q;
    }
    forall p | p in paths ensures exists q | q in kept :: Terminal(q) == Terminal(p) && key(q) <= key(p) {
      var j :| 0 <= j < |paths| && paths[j] == p;
      var k :| 0 <= k < |kept| && Terminals(kept)[k] == Terminal(p);
      assert kept[k] in kept;
    }
    forall k | 0 <= k < |kept| ensures FirstMinimal(paths, kept[k], key) {
      var i := origin[k];
      assert paths[i] == kept[k];
    }
  }

  // ---------------------------------------------------------------- step 2d: sorting

  /** The index of the first path in `s` whose key is not smaller than `x`'s, or `|s|`. */
  function Position(x: Path, s: seq<Path>, key: Path -> real): (k: nat)
    ensures k <= |s|
    ensures forall i | 0 <= i < k :: key(s[i]) < key(x)
    ensures k < |s| ==> key(x) <= key(s[k])
  {
    if |s| == 0 || key(x) <= key(s[0]) then 0
    else 1 + Position(x, s[1..], key)
  }

  /** Splicing `x` in at its position keeps a sorted sequence sorted. */
  lemma SpliceSorted(x: Path, s: seq<Path>, key: Path -> real)
    requires Sorted(s, key)
    ensures var k := Position(x, s, key); Sorted(s[..k] + [x] + s[k..], key)
  {
    var k := Position(x, s, key);
    var r := s[..k] + [x] + s[k..];
    assert forall i | 0 <= i < |r| :: r[i] == if i < k then s[i] else if i == k then x else s[i - 1];
    forall i, j | 0 <= i < j < |r| ensures key(r[i]) <= key(r[j]) {
      if j < k {
        assert key(s[i]) <= key(s[j]);
      } else if j == k {
        assert key(s[i]) < key(x);
      } else if i < k {
        assert key(s[i]) <= key(s[j - 1]);
      } else if i == k {
        assert key(x) <= key(s[k]) <= key(s[j - 1]);
      } else {
        assert key(s[i - 1]) <= key(s[j - 1]);
      }
    }
  }

  /** Places `x` before the first path whose key is not smaller. */
  function Insert(x: Path, s: seq<Path>, key: Path -> real): (r: seq<Path>)
    requires Sorted(s, key)
    ensures Sorted(r, key)
    ensures multiset(r) == multiset(s) + multiset{x}
    ensures exists k | 0 <= k <= |s| :: r == s[..k] + [x] + s[k..]
  {
    var k := Position(x, s, key);
    SpliceSorted(x, s, key);
    assert s == s[..k] + s[k..];
    s[..k] + [x] + s[k..]
  }

  /** Step 2d: insertion sort by key; stable, like Java's `List.sort`. */
  function SortByKey(s: seq<Path>, key: Path -> real): (r: seq<Path>)
    ensures Sorted(r, key)
    ensures multiset(r) == multiset(s)
  {
    if |s| == 0 then []
    else
      assert s == [s[0]] + s[1..];
      Insert(s[0], SortByKey(s[1..], key), key)
  }

  /** Splicing in a path whose terminal is new keeps the terminals distinct. */
  lemma SpliceDistinct(x: Path, s: seq<Path>, k: nat)
    requires DistinctTerminals(s) && |x.states| > 0 && k <= |s|
    requires forall q | q in s :: Terminal(q) != Terminal(x)
    ensures DistinctTerminals(s[..k] + [x] + s[k..])
  {
    var r := s[..k] + [x] + s[k..];
    assert forall i | 0 <= i < |r| :: r[i] == if i < k then s[i] else if i == k then x else s[i - 1];
  }

  /** Sorting keeps the terminals pairwise distinct. */
  lemma {:induction false} SortKeepsDistinctTerminals(s: seq<Path>, key: Path -> real)
    requires DistinctTerminals(s)
    ensures DistinctTerminals(SortByKey(s, key))
  {
    if |s| > 0 {
      var tail := s[1..];
      assert DistinctTerminals(tail) by {
        forall i | 0 <= i < |tail| ensures tail[i] == s[i + 1] { }
      }
      SortKeepsDistinctTerminals(tail, key);
      var sorted := SortByKey(tail, key);
      forall q | q in sorted ensures |q.states| > 0 && Terminal(q) != Terminal(s[0]) {
        assert q in multiset(tail);
        var j :| 0 <= j < |tail| && tail[j] == q;
        assert q == s[j + 1];
      }
      var k :| 0 <= k <= |sorted| && SortByKey(s, key) == sorted[..k] + [s[0]] + sorted[k..];
      SpliceDistinct(s[0], sorted, k);
    }
  }

  // ---------------------------------------------------------------- the loop

  /** What every frontier path satisfies: it starts at `initial`, moves legally, never repeats a state. */
  predicate Good(p: Path, initial: Board) {
    && WellFormed(p)
    && HasBlank(Terminal(p))
    && p.states[0] == initial
    && Adjacent(p.states)
    && Distinct(p.states)
    && forall i | 0 <= i < |p.states| :: ValidBoard(p.states[i])
  }

  /** Appending a state one move after the terminal keeps consecutive states adjacent. */
  lemma AppendAdjacent(states: seq<Board>, s: Board)
    requires |states| > 0 && Adjacent(states) && Moved(states[|states| - 1], s)
    ensures Adjacent(states + [s])
  {
    var ext := states + [s];
    forall i | 0 <= i < |ext| - 1 ensures Moved(ext[i], ext[i + 1]) {
      if i < |states| - 1 {
        assert ext[i] == states[i] && ext[i + 1] == states[i + 1];
      }
    }
  }

  /** A neighbour of a valid board is a valid board one move away. */
  lemma NeighborIsMove(b: Board, s: Board)
    requires ValidBoard(b) && HasBlank(b) && s in Neighbors(b)
    ensures Moved(b, s) && ValidBoard(s) && HasBlank(s)
  {
    NeighborsAreMoveResults(b);
    NeighborsOfValid(b);
    ValidBoardHasEverySymbol(s);
  }

  /** Appending a state not yet present keeps the states distinct. */
  lemma AppendDistinct(states: seq<Board>, s: Board)
    requires Distinct(states) && s !in states
    ensures Distinct(states + [s])
  {
    var ext := states + [s];
    assert forall i | 0 <= i < |ext| :: ext[i] == if i < |states| then states[i] else s;
  }

  /** Appending a valid board with a blank keeps every state valid and well formed. */
  lemma AppendValid(states: seq<Board>, s: Board)
    requires forall i | 0 <= i < |states| :: ValidBoard(states[i]) && HasBlank(states[i])
    requires ValidBoard(s) && HasBlank(s)
    ensures forall i | 0 <= i < |states + [s]| :: ValidBoard((states + [s])[i]) && HasBlank((states + [s])[i])
  {
    var ext := states + [s];
    assert forall i | 0 <= i < |ext| :: ext[i] == if i < |states| then states[i] else s;
  }

  /** Extending a good path by a neighbour not on it gives a good path. */
  lemma ExtendKeepsGood(best: Path, s: Board, initial: Board)
    requires Good(best, initial)
    requires s in Neighbors(Terminal(best)) && s !in best.states
    ensures Good(Path(best.states + [s]), initial)
  {
    NeighborIsMove(Terminal(best), s);
    AppendAdjacent(best.states, s);
    AppendDistinct(best.states, s);
    AppendValid(best.states, s);
  }

  lemma ExtendAllGood(best: Path, expansions: seq<Board>, initial: Board)
    requires Good(best, initial) && expansions == Neighbors(Terminal(best))
    ensures forall q | q in Extend(best, expansions) :: Good(q, initial)
  {
    forall q | q in Extend(best, expansions) ensures Good(q, initial) {
      var s := q.states[|best.states|];
      ExtendKeepsGood(best, s, initial);
    }
  }

  /** A good path can be scored, and its score is its estimate. */
  lemma GoodIsScorable(p: Path, initial: Board, h: Heuristic)
    requires Good(p, initial) && ValidBoard(h.goal)
    ensures Scorable(p, h) && Score(h, p) == Estimate(p, h)
  {
    CanEvalValid(h, Terminal(p));
  }

  /** Every state after the first is recorded in `database`. */
  predicate Recorded(p: Path, database: set<Board>) {
    forall k | 1 <= k < |p.states| :: p.states[k] in database
  }

  /**
    One pass of the loop body on a frontier whose head does not end at the
    goal: remove the head, extend it (2a, 2b), prune (2c) and sort (2d).
    Every state a candidate path reaches is still reached, by a path no
    costlier, and the registry gains exactly the head's neighbours.
   */
  method Expand(frontier: seq<Path>, initial: Board, h: Heuristic, database: set<Board>)
    returns (next: seq<Path>, grown: set<Board>)
    requires frontier != [] && Good(frontier[0], initial)
    requires forall p | p in frontier :: Good(p, initial) && Recorded(p, database)
    ensures forall p | p in next :: Good(p, initial) && Recorded(p, grown)
    ensures DistinctTerminals(next) && Sorted(next, KeyOf(h))
    ensures grown == database + Successors(Terminal(frontier[0]))
    ensures forall p | p in next :: p in frontier[1..] || p.states[..|p.states| - 1] == frontier[0].states
    ensures forall c | c in frontier[1..] + Extend(frontier[0], Neighbors(Terminal(frontier[0]))) ::
              |c.states| > 0 && exists q | q in next :: Terminal(q) == Terminal(c) && Score(h, q) <= Score(h, c)
  {
    var best := frontier[0];
    var neighbors := GetNeighbors(Terminal(best), database);
    assert neighbors == (Neighbors(Terminal(best)), database + Successors(Terminal(best)));
    var expansions := neighbors.0;
    grown := neighbors.1;
    var extended := Extend(best, expansions);
    var candidates := frontier[1..] + extended;
    assert candidates == frontier[1..] + Extend(frontier[0], Neighbors(Terminal(frontier[0])));
    CandidatesNonEmpty(frontier, initial, extended);
    next := PruneAndSort(candidates, KeyOf(h));
    NextGood(frontier, initial, database, grown, extended, next);
    CoverByScore(candidates, next, h);
  }

  /** Coverage under `KeyOf(h)` is coverage under `Score(h, _)`. */
  lemma CoverByScore(candidates: seq<Path>, next: seq<Path>, h: Heuristic)
    requires NonEmptyPaths(next)
    requires forall c | c in candidates :: |c.states| > 0 && exists q | q in next :: Terminal(q) == Terminal(c) && KeyOf(h)(q) <= KeyOf(h)(c)
    ensures forall c | c in candidates :: |c.states| > 0 && exists q | q in next :: Terminal(q) == Terminal(c) && Score(h, q) <= Score(h, c)
  {
    forall c | c in candidates
      ensures |c.states| > 0 && exists q | q in next :: Terminal(q) == Terminal(c) && Score(h, q) <= Score(h, c)
    {
      var q :| q in next && Terminal(q) == Terminal(c) && KeyOf(h)(q) <= KeyOf(h)(c);
    }
  }

  /**
    Steps 2c and 2d together: drop every candidate whose terminal state is
    reached more cheaply (or as cheaply, earlier) by another, then order the
    survivors by key. Every candidate's terminal is still reached, by a path
    no costlier, and nothing new appears.
   */
  method PruneAndSort(candidates: seq<Path>, key: Path -> real) returns (next: seq<Path>)
    requires NonEmptyPaths(candidates)
    ensures NonEmptyPaths(next) && DistinctTerminals(next) && Sorted(next, key)
    ensures Members(next) <= Members(candidates)
    ensures forall c | c in candidates :: |c.states| > 0 && exists q | q in next :: Terminal(q) == Terminal(c) && key(q) <= key(c)
  {
    var pruned := Prune(candidates, key);
    next := SortByKey(pruned, key);
    SortKeepsDistinctTerminals(pruned, key);
    PermutedFrom(candidates, pruned, next);
    PermutedCovers(candidates, pruned, next, key);
  }

  /**
    The queue without its head, plus the head's extensions, holds good paths
    recorded in the enlarged registry, each an old path or the head plus one state.
   */
  lemma CandidatesGood(frontier: seq<Path>, initial: Board, database: set<Board>, grown: set<Board>, extended: seq<Path>)
    requires frontier != [] && Good(frontier[0], initial)
    requires forall p | p in frontier :: Good(p, initial) && Recorded(p, database)
    requires grown == database + Successors(Terminal(frontier[0]))
    requires extended == Extend(frontier[0], Neighbors(Terminal(frontier[0])))
    ensures forall p | p in frontier[1..] + extended ::
              && Good(p, initial) && Recorded(p, grown)
              && (p in frontier[1..] || p.states[..|p.states| - 1] == frontier[0].states)
  {
    var best := frontier[0];
    ExtendAllGood(best, Neighbors(Terminal(best)), initial);
    forall p | p in frontier[1..] ensures Good(p, initial) && Recorded(p, grown) {
      assert p in frontier;
    }
    forall p | p in extended
      ensures Recorded(p, grown) && p.states[..|p.states| - 1] == best.states
    {
      ExtendedStep(best, database, p);
    }
  }

  /** An extension of `best` adds one freshly recorded neighbour to its states. */
  lemma ExtendedStep(best: Path, database: set<Board>, p: Path)
    requires |best.states| > 0 && HasBlank(Terminal(best)) && Recorded(best, database)
    requires p in Extend(best, Neighbors(Terminal(best)))
    ensures Recorded(p, database + Successors(Terminal(best)))
    ensures p.states[..|p.states| - 1] == best.states
  {
    var n := |best.states|;
    var s := p.states[n];
    assert p == Path(best.states + [s]);
    assert s in Successors(Terminal(best)) by {
      assert s in Neighbors(Terminal(best));
    }
    AppendRecorded(best, s, database + Successors(Terminal(best)));
  }

  /** Appending a recorded state to a recorded path gives a recorded path that extends it by one. */
  lemma AppendRecorded(best: Path, s: Board, database: set<Board>)
    requires Recorded(best, database) && s in database
    ensures Recorded(Path(best.states + [s]), database)
    ensures (best.states + [s])[..|best.states|] == best.states
  {
    var ext := best.states + [s];
    forall k | 1 <= k < |ext| ensures ext[k] in database {
      if k < |best.states| {
        assert ext[k] == best.states[k];
      }
    }
  }


  /** Every candidate path has at least its initial state. */
  lemma CandidatesNonEmpty(frontier: seq<Path>, initial: Board, extended: seq<Path>)
    requires frontier != [] && Good(frontier[0], initial)
    requires forall p | p in frontier :: Good(p, initial)
    requires extended == Extend(frontier[0], Neighbors(Terminal(frontier[0])))
    ensures NonEmptyPaths(frontier[1..] + extended)
  {
    forall p | p in frontier[1..] ensures |p.states| > 0 {
      assert p in frontier;
    }
    ConcatNonEmpty(frontier[1..], extended);
  }

  lemma ConcatNonEmpty(a: seq<Path>, b: seq<Path>)
    requires forall p | p in a :: |p.states| > 0
    requires forall p | p in b :: |p.states| > 0
    ensures NonEmptyPaths(a + b)
  {
    forall i | 0 <= i < |a + b| ensures |(a + b)[i].states| > 0 {
      if i < |a| {
        assert (a + b)[i] == a[i];
      } else {
        assert (a + b)[i] == b[i - |a|];
      }
    }
  }

  /** Whatever survives pruning and sorting was a candidate, so it is good too. */
  lemma NextGood(frontier: seq<Path>, initial: Board, database: set<Board>, grown: set<Board>, extended: seq<Path>, next: seq<Path>)
    requires frontier != [] && Good(frontier[0], initial)
    requires forall p | p in frontier :: Good(p, initial) && Recorded(p, database)
    requires grown == database + Successors(Terminal(frontier[0]))
    requires extended == Extend(frontier[0], Neighbors(Terminal(frontier[0])))
    requires Members(next) <= Members(frontier[1..] + extended)
    ensures forall p | p in next ::
              && Good(p, initial) && Recorded(p, grown)
              && (p in frontier[1..] || p.states[..|p.states| - 1] == frontier[0].states)
  {
    CandidatesGood(frontier, initial, database, grown, extended);
    forall p | p in next
      ensures Good(p, initial) && Recorded(p, grown)
      ensures p in frontier[1..] || p.states[..|p.states| - 1] == frontier[0].states
    {
      assert p in Members(next);
    }
  }

  /** A reordering of paths taken from the candidates still takes them from the candidates. */
  lemma PermutedFrom(candidates: seq<Path>, pruned: seq<Path>, next: seq<Path>)
    requires multiset(next) == multiset(pruned) && Members(pruned) <= Members(candidates)
    ensures Members(next) <= Members(candidates)
  {
    forall p | p in next ensures p in candidates {
      assert p in multiset(next);
      assert p in Members(pruned);
    }
  }

  /** A reordering of the pruned paths still reaches every candidate's terminal at no greater key. */
  lemma PermutedCovers(candidates: seq<Path>, pruned: seq<Path>, next: seq<Path>, key: Path -> real)
    requires NonEmptyPaths(candidates) && NonEmptyPaths(pruned) && NonEmptyPaths(next)
    requires multiset(next) == multiset(pruned)
    requires forall c | c in candidates :: exists q | q in pruned :: Terminal(q) == Terminal(c) && key(q) <= key(c)
    ensures forall c | c in candidates :: |c.states| > 0 && exists q | q in next :: Terminal(q) == Terminal(c) && key(q) <= key(c)
  {
    forall c | c in candidates
      ensures |c.states| > 0 && exists q | q in next :: Terminal(q) == Terminal(c) && key(q) <= key(c)
    {
      var q :| q in pruned && Terminal(q) == Terminal(c) && key(q) <= key(c);
      assert q in multiset(pruned);
      assert q in next;
    }
  }

  // ---------------------------------------------------------------- what the loop has explored

  /** The terminal states of a queue, as a set. */
  function TerminalSet(ps: seq<Path>): (ts: set<Board>)
    requires NonEmptyPaths(ps)
    ensures forall i | 0 <= i < |ps| :: Terminal(ps[i]) in ts
    ensures forall t | t in ts :: exists i | 0 <= i < |ps| :: Terminal(ps[i]) == t
  {
    set t | t in Terminals(ps)
  }

  /**
    The states the loop has expanded, the terminals of the heads it removed:
    the goal is not among them, every legal move from one of them lands on
    another or on a frontier terminal, the initial state is one or the other,
    and a frontier path passes only through expanded states before its end.
   */
  predicate Explored(expanded: set<Board>, frontier: seq<Path>, initial: Board, goal: Board)
    requires NonEmptyPaths(frontier)
  {
    && (initial in expanded || initial in TerminalSet(frontier))
    && goal !in expanded
    && (forall e | e in expanded :: HasBlank(e) && Successors(e) <= expanded + TerminalSet(frontier))
    && (forall p, k | p in frontier && 0 <= k < |p.states| - 1 :: p.states[k] in expanded)
  }

  /** Each candidate covered by a path of `next` ends at a terminal of `next`. */
  lemma CoveredTerminals(candidates: seq<Path>, next: seq<Path>, h: Heuristic)
    requires NonEmptyPaths(next)
    requires forall c | c in candidates ::
               |c.states| > 0 && exists q | q in next :: Terminal(q) == Terminal(c) && Score(h, q) <= Score(h, c)
    ensures forall c | c in candidates :: |c.states| > 0 && Terminal(c) in TerminalSet(next)
  {
    forall c | c in candidates ensures |c.states| > 0 && Terminal(c) in TerminalSet(next) {
      var q :| q in next && Terminal(q) == Terminal(c) && Score(h, q) <= Score(h, c);
      var i :| 0 <= i < |next| && next[i] == q;
    }
  }

  /** What holds for every candidate holds for the tail of the queue and for the head's extensions. */
  lemma CoverageSplits(frontier: seq<Path>, next: seq<Path>)
    requires frontier != [] && |frontier[0].states| > 0 && HasBlank(Terminal(frontier[0])) && NonEmptyPaths(next)
    requires forall c | c in frontier[1..] + Extend(frontier[0], Neighbors(Terminal(frontier[0]))) ::
               |c.states| > 0 && Terminal(c) in TerminalSet(next)
    ensures forall c | c in frontier[1..] :: |c.states| > 0 && Terminal(c) in TerminalSet(next)
    ensures forall c | c in Extend(frontier[0], Neighbors(Terminal(frontier[0]))) ::
              |c.states| > 0 && Terminal(c) in TerminalSet(next)
  {
    var extended := Extend(frontier[0], Neighbors(Terminal(frontier[0])));
    forall c | c in frontier[1..] ensures c in frontier[1..] + extended {
    }
    forall c | c in extended ensures c in frontier[1..] + extended {
    }
  }

  /** Every terminal of the old frontier is the removed head's or still a terminal of the new one. */
  lemma TerminalsStayCovered(frontier: seq<Path>, next: seq<Path>)
    requires frontier != [] && NonEmptyPaths(frontier) && NonEmptyPaths(next)
    requires forall c | c in frontier[1..] :: |c.states| > 0 && Terminal(c) in TerminalSet(next)
    ensures TerminalSet(frontier) <= {Terminal(frontier[0])} + TerminalSet(next)
  {
    forall t | t in TerminalSet(frontier) ensures t in {Terminal(frontier[0])} + TerminalSet(next) {
      var i :| 0 <= i < |frontier| && Terminal(frontier[i]) == t;
      if i > 0 {
        assert frontier[i] == frontier[1..][i - 1];
      }
    }
  }

  /**
    Every neighbour of the head's terminal lies on the head path or ends one
    of its extensions, which pruning keeps covered.
   */
  lemma HeadSuccessorsCovered(expanded: set<Board>, frontier: seq<Path>, next: seq<Path>)
    requires frontier != [] && WellFormed(frontier[0]) && NonEmptyPaths(next)
    requires forall k | 0 <= k < |frontier[0].states| - 1 :: frontier[0].states[k] in expanded
    requires forall c | c in Extend(frontier[0], Neighbors(Terminal(frontier[0]))) ::
               |c.states| > 0 && Terminal(c) in TerminalSet(next)
    ensures Successors(Terminal(frontier[0])) <= expanded + {Terminal(frontier[0])} + TerminalSet(next)
  {
    var best := frontier[0];
    var n := |best.states|;
    forall s | s in Successors(Terminal(best)) ensures s in expanded + {Terminal(best)} + TerminalSet(next) {
      if s in best.states {
        var k :| 0 <= k < n && best.states[k] == s;
        if k < n - 1 {
          assert s in expanded;
        }
      } else {
        var c := Path(best.states + [s]);
        assert c in Extend(best, Neighbors(Terminal(best)));
        assert Terminal(c) == s;
      }
    }
  }

  /** A new frontier path is an old tail path or the head plus one state, so it passes only through expanded states. */
  lemma NextPassesExpanded(expanded: set<Board>, frontier: seq<Path>, next: seq<Path>)
    requires frontier != [] && WellFormed(frontier[0]) && NonEmptyPaths(next)
    requires forall p, k | p in frontier && 0 <= k < |p.states| - 1 :: p.states[k] in expanded
    requires forall p | p in next :: p in frontier[1..] || p.states[..|p.states| - 1] == frontier[0].states
    ensures forall p, k | p in next && 0 <= k < |p.states| - 1 :: p.states[k] in expanded + {Terminal(frontier[0])}
  {
    var best := frontier[0];
    forall p, k | p in next && 0 <= k < |p.states| - 1 ensures p.states[k] in expanded + {Terminal(best)} {
      if p in frontier[1..] {
        assert p in frontier;
      } else {
        assert p.states[k] == p.states[..|p.states| - 1][k] == best.states[k];
        if k < |best.states| - 1 {
          assert best in frontier;
        }
      }
    }
  }

  /** One pass of the loop keeps `Explored`, with the head's terminal now expanded. */
  lemma ExploredStep(expanded: set<Board>, frontier: seq<Path>, next: seq<Path>, initial: Board, goal: Board)
    requires frontier != [] && NonEmptyPaths(frontier) && NonEmptyPaths(next)
    requires WellFormed(frontier[0]) && HasBlank(Terminal(frontier[0])) && Terminal(frontier[0]) != goal
    requires Explored(expanded, frontier, initial, goal)
    requires forall p | p in next :: p in frontier[1..] || p.states[..|p.states| - 1] == frontier[0].states
    requires forall c | c in frontier[1..] :: |c.states| > 0 && Terminal(c) in TerminalSet(next)
    requires forall c | c in Extend(frontier[0], Neighbors(Terminal(frontier[0]))) ::
               |c.states| > 0 && Terminal(c) in TerminalSet(next)
    ensures Explored(expanded + {Terminal(frontier[0])}, next, initial, goal)
  {
    var best := frontier[0];
    TerminalsStayCovered(frontier, next);
    assert forall k | 0 <= k < |best.states| - 1 :: best.states[k] in expanded by {
      assert best in frontier;
    }
    HeadSuccessorsCovered(expanded, frontier, next);
    NextPassesExpanded(expanded, frontier, next);
    ExploredGrows(expanded, frontier, next, initial, goal, Terminal(best));
  }

  /**
    Expanding `t` keeps `Explored` when the old terminals are `t` or new
    terminals, `t`'s neighbours are expanded or new terminals, and the new
    paths pass only through expanded states and `t`.
   */
  lemma ExploredGrows(expanded: set<Board>, frontier: seq<Path>, next: seq<Path>, initial: Board, goal: Board, t: Board)
    requires NonEmptyPaths(frontier) && NonEmptyPaths(next)
    requires Explored(expanded, frontier, initial, goal) && t != goal && HasBlank(t)
    requires TerminalSet(frontier) <= {t} + TerminalSet(next)
    requires Successors(t) <= expanded + {t} + TerminalSet(next)
    requires forall p, k | p in next && 0 <= k < |p.states| - 1 :: p.states[k] in expanded + {t}
    ensures Explored(expanded + {t}, next, initial, goal)
  {
    ClosureGrows(expanded, TerminalSet(frontier), TerminalSet(next), t);
  }

  /**
    If every neighbour of `expanded` is expanded or in `open`, and `open`
    is `t` or in `open'`, then after expanding `t` as well every neighbour
    is expanded or in `open'`, provided `t`'s neighbours are.
   */
  lemma ClosureGrows(expanded: set<Board>, open: set<Board>, open': set<Board>, t: Board)
    requires forall e | e in expanded :: HasBlank(e) && Successors(e) <= expanded + open
    requires open <= {t} + open' && HasBlank(t)
    requires Successors(t) <= expanded + {t} + open'
    ensures forall e | e in expanded + {t} :: HasBlank(e) && Successors(e) <= expanded + {t} + open'
  {
    forall e | e in expanded + {t} ensures HasBlank(e) && Successors(e) <= expanded + {t} + open' {
      if e != t {
        assert Successors(e) <= expanded + open;
      }
    }
  }

  /** Moves from a state of a set closed under legal moves never leave the set. */
  lemma {:induction false} ReplayStaysInside(b: Board, ops: seq<Op>, closed: set<Board>)
    requires b in closed
    requires forall e | e in closed :: HasBlank(e) && Successors(e) <= closed
    ensures Replay(b, ops).Some? ==> Replay(b, ops).value in closed
    decreases |ops|
  {
    if |ops| > 0 && Transform(b, ops[0]).Some? {
      var n := Transform(b, ops[0]).value;
      assert n in Successors(b);
      ReplayStaysInside(n, ops[1..], closed);
    }
  }

  /** Once the frontier is empty, no sequence of moves takes the initial state to the goal. */
  lemma ExhaustedMeansUnreachable(expanded: set<Board>, initial: Board, goal: Board)
    requires Explored(expanded, [], initial, goal)
    ensures HasBlank(initial)
    ensures forall ops: seq<Op> :: Replay(initial, ops) != Some(goal)
  {
    assert TerminalSet([]) == {};
    forall ops: seq<Op> ensures Replay(initial, ops) != Some(goal) {
      ReplayStaysInside(initial, ops, expanded);
    }
  }

  datatype Outcome = Found(path: Path) | NoSolution | OutOfFuel

  /**
    `exec` / `aStar`: start from the zero-length path at `initial`; until the
    frontier is empty or its head ends at the goal, expand the head. `known`
    is the static registry of states `getNeighbors` adds to.
   */
  method AStar(initial: Board, goal: Board, h: Heuristic, known: set<Board>, fuel: nat)
    returns (outcome: Outcome, frontier: seq<Path>, database: set<Board>)
    requires ValidBoard(initial) && ValidBoard(goal) && ValidBoard(h.goal)
    ensures forall p | p in frontier :: Good(p, initial) && Recorded(p, database)
    ensures DistinctTerminals(frontier) && Sorted(frontier, KeyOf(h))
    ensures outcome.Found? <==> frontier != [] && Terminal(frontier[0]) == goal
    ensures outcome.NoSolution? <==> frontier == []
    ensures outcome.OutOfFuel? ==> frontier != [] && Terminal(frontier[0]) != goal
    ensures outcome.Found? ==> outcome.path == frontier[0] && Good(outcome.path, initial)
    ensures initial == goal ==> outcome == Found(Single(initial))
    ensures known <= database
    ensures forall s | s in database - known :: ValidBoard(s) && CanReach(initial, s)
    ensures fuel == 0 ==> frontier == [Single(initial)] && database == known
    ensures fuel > 0 && initial != goal ==> HasBlank(initial) && Successors(initial) <= database
    ensures outcome.NoSolution? ==> HasBlank(initial) && forall ops: seq<Op> :: Replay(initial, ops) != Some(goal)
  {
    ValidBoardHasEverySymbol(initial);
    frontier := [Single(initial)];
    database := known;
    var remaining: nat := fuel;
    ghost var expanded: set<Board> := {};
    assert Terminal(frontier[0]) in TerminalSet(frontier);
    while frontier != [] && Terminal(frontier[0]) != goal && remaining > 0
      invariant forall p | p in frontier :: Good(p, initial) && Recorded(p, database)
      invariant DistinctTerminals(frontier) && Sorted(frontier, KeyOf(h))
      invariant initial == goal ==> frontier == [Single(initial)]
      invariant known <= database
      invariant forall s | s in database - known :: ValidBoard(s) && CanReach(initial, s)
      invariant remaining <= fuel
      invariant remaining == fuel ==> frontier == [Single(initial)] && database == known
      invariant remaining < fuel ==> Successors(initial) <= database
      invariant Explored(expanded, frontier, initial, goal)
      decreases remaining
    {
      RegistryStep(initial, known, database, frontier[0]);
      var head := frontier[0];
      var next, grown := Expand(frontier, initial, h, database);
      CoveredTerminals(frontier[1..] + Extend(head, Neighbors(Terminal(head))), next, h);
      CoverageSplits(frontier, next);
      ExploredStep(expanded, frontier, next, initial, goal);
      expanded := expanded + {Terminal(head)};
      frontier, database := next, grown;
      remaining := remaining - 1;
    }
    if frontier == [] {
      ExhaustedMeansUnreachable(expanded, initial, goal);
      outcome := NoSolution;
    } else if Terminal(frontier[0]) == goal {
      outcome := Found(frontier[0]);
    } else {
      outcome := OutOfFuel;
    }
  }

  /** A board one move from a board of the initial board's parity has that parity too. */
  lemma SuccessorsReachable(initial: Board, b: Board)
    requires ValidBoard(initial) && ValidBoard(b) && HasBlank(b) && CanReach(initial, b)
    ensures forall s | s in Successors(b) :: ValidBoard(s) && CanReach(initial, s)
  {
    forall s | s in Successors(b) ensures ValidBoard(s) && CanReach(initial, s) {
      var o :| o in Operators(b) && Transform(b, o).value == s;
      TransformKeepsSymbols(b, o);
      MovePreservesParity(b, o);
      CanReachIsEquivalence(initial, b, s);
    }
  }

  /**
    What one pass adds to the registry, the neighbours of a good path's
    terminal, are valid boards of the initial board's parity.
   */
  lemma RegistryStep(initial: Board, known: set<Board>, database: set<Board>, best: Path)
    requires ValidBoard(initial) && Good(best, initial)
    requires forall s | s in database - known :: ValidBoard(s) && CanReach(initial, s)
    ensures forall s | s in database + Successors(Terminal(best)) - known :: ValidBoard(s) && CanReach(initial, s)
  {
    FoundIsSolution(initial, Terminal(best), best);
    SuccessorsReachable(initial, Terminal(best));
  }

  /**
    A path the search returns is a solution: its recovered moves take
    `initial` to the goal, so the two are parity-compatible as `canReach`
    checks before the search starts.
   */
  lemma FoundIsSolution(initial: Board, goal: Board, p: Path)
    requires Good(p, initial) && Terminal(p) == goal
    ensures var ops := PathOperators(p);
            && (forall i | 0 <= i < |ops| :: ops[i].Some?)
            && Replay(initial, Unwrap(ops)) == Some(goal)
            && |ops| == Length(p)
            && CanReach(initial, goal)
  {
    ReplayReachesTerminal(p);
    ReplayPreservesParity(initial, Unwrap(PathOperators(p)));
  }

  /** Every frontier path can be scored, so the frontier is sorted by `estimate` itself. */
  lemma FrontierIsScored(frontier: seq<Path>, initial: Board, h: Heuristic)
    requires forall p | p in frontier :: Good(p, initial)
    requires ValidBoard(h.goal) && Sorted(frontier, KeyOf(h))
    ensures forall i | 0 <= i < |frontier| :: Scorable(frontier[i], h)
    ensures forall i, j | 0 <= i < j < |frontier| :: Estimate(frontier[i], h) <= Estimate(frontier[j], h)
  {
    forall i | 0 <= i < |frontier| ensures Scorable(frontier[i], h) && Score(h, frontier[i]) == Estimate(frontier[i], h) {
      GoodIsScorable(frontier[i], initial, h);
    }
  }
}
